=== FILE: README.md ===
# Freelance job portal backend, modelled in Dafny

This project models the backend of a freelance marketplace. Clients post jobs. Freelancers submit proposals on them. A client who accepts a proposal moves the job to in-progress. Users exchange direct messages.

The model covers the Express router `backend/routes/index.js` and the Mongoose schemas `backend/models/index.js`. The database is one immutable value. It holds four maps, for users, jobs, proposals and messages, and an identifier counter. Each route is a pure function from the database, the acting user and the request to the database afterwards and a response. A response is a status code and a body.

Modules, leaves first:

- `Base`: identifiers, `Option`, and JavaScript truthiness of optional strings.
- `Strings`: the string behaviour the code relies on. This is `toLowerCase` on ASCII and Latin-1 capitals, `trim`, `replace` with a string pattern, `split(',')`, and the case-insensitive substring test that stands for the `$regex`/`'i'` search.
- `Decimal` and `Crypto`: stand-ins for `bcryptjs` and `jsonwebtoken`, described below.
- `Models`: the four schemas. Enums are datatypes with a name function and a parser that inverts it. A `New…` function per schema applies the `trim` and `lowercase` setters, the defaults and the `required`, `enum` and `minlength` validators.
- `Stores`: the database and the invariant `Valid`. It also holds `SelectIds`, the "filter, then sort by `createdAt` descending" step every listing shares.
- `Routes`: the `auth` middleware, every handler, and `Handle`, which dispatches one request.
- `Properties`: lemmas that relate several requests.

Design choices:

- **Identifiers.** One counter hands out all identifiers, in creation order, and each new document gets the next one. A larger identifier therefore means a later `createdAt`, and "newest first" means "largest identifier first".
- **The store type.** `Store` is a subset type. Every key is below the counter, and every document carries its own key as `id`.
- **Request fields.** Each body field is an `Option`, because a request may omit it. The model follows Mongoose's `required` rule for strings: a string must be present and non-empty.
- **Password hashing.** `bcrypt.hash` is modelled as a fixed header followed by the password. It is deterministic and injective. `bcrypt.compare(p, h)` holds exactly when `h` is the hash of `p`.
- **Tokens.** `jwt.sign` is modelled as the secret, a dot, and the user's canonical decimal identifier. `Crypto.Verify` admits a token exactly when it is the token signed for that user under the configured secret, which models an unforgeable signature.
- **Atomicity.** Each request is one atomic step. A handler that fails leaves the database unchanged.

The model follows the code, including where it is surprising:

- A status update answers 404 for a missing proposal before it checks ownership.
- A proposal's status can be set to any enum value, any number of times.
- `PUT /jobs/:id` assigns the body over the job wholesale, so it can change `status`, `client` or `proposals`.
- `POST /jobs` takes `status` and `proposals` from the body. A new job defaults to `open` when the body names no status; otherwise it takes the named status, which must be in the enum.
- Deleting a job does not delete its proposals.
- Login without a password answers 500 for a registered address and 400 for an unknown one, so the identical-error rule holds only when a password is sent.
- A job's budget `min` may exceed its `max`.
- `minlength: 6` applies to the stored hash, not to the password the user typed. Any password, even an empty one, is accepted.

## Model

| member | source | states |
|---|---|---|
| Strings.Lower | backend/models/index.js:6 | lower-casing keeps the length and maps each ASCII or Latin-1 capital to its lower-case letter, leaving every other character |
| Strings.Trim | backend/models/index.js:5 | the result is the slice of the input left after dropping white space, and only white space, from either end, where white space is every character ECMAScript's `trim` removes (the WhiteSpace and LineTerminator sets); it has no white space at either end, and it is empty exactly when the input is all white space |
| Strings.IndexOf | backend/routes/index.js:11 | returns the first occurrence of the pattern, or `None` exactly when the pattern does not occur |
| Strings.ReplaceLeadingPattern | backend/routes/index.js:11 | removing `Bearer ` from a header that starts with it leaves exactly the token |
| Strings.ContainsIgnoringCase | backend/routes/index.js:107-111 | true exactly when the lower-cased needle occurs in the lower-cased haystack |
| Strings.VerbatimOccurrenceFound | backend/routes/index.js:107-111 | a verbatim occurrence of the search text is always found by the case-insensitive search |
| Strings.Split | backend/routes/index.js:106 | `split(',')` yields at least one part, no part contains a comma, and joining the parts with commas gives the input back |
| Strings.SplitJoin | backend/routes/index.js:106 | splitting the join of comma-free parts gives those parts back, so the two are inverse |
| Decimal.ParseIsInverseOfShow | backend/routes/index.js:34 | the identifier numeral inside a token parses to `n` exactly when it is the numeral of `n` |
| Crypto.CompareHash | backend/routes/index.js:51 | a password matches the stored hash of a password exactly when the two passwords are equal |
| Crypto.Verify | backend/routes/index.js:14 | a token verifies to user `u` exactly when it is the token signed for `u` under the same secret |
| Models.ParseUserType | backend/models/index.js:8 | accepts exactly `client` and `freelancer`, and inverts the name function |
| Models.ParseJobStatus | backend/models/index.js:33 | accepts exactly `open`, `in-progress`, `completed` and `cancelled`, and inverts the name function |
| Models.ParseProposalStatus | backend/models/index.js:44 | accepts exactly `pending`, `accepted` and `rejected`, and inverts the name function |
| Models.ParseBudgetType | backend/models/index.js:27 | accepts exactly `fixed` and `hourly`, and inverts the name function |
| Models.NewUser | backend/models/index.js:4-18 | the user saves exactly when the trimmed name is non-empty, the email is present, the stored password has at least 6 characters and the type is in the enum; on success the email is lower-cased, the rating is 0 with count 0, and the user is unverified |
| Models.NewBudget | backend/models/index.js:26-30 | the budget saves exactly when the type is in the enum and `min` and `max` are both present; no order between them is demanded |
| Models.NewJob | backend/models/index.js:21-35 | the job saves exactly when the required fields are present, the budget validates and any given status is in the enum; on success the status defaults to open, `skills` and `proposals` default to empty, and every given field is kept |
| Models.JobFieldsRoundTrip | backend/models/index.js:21-35 | saving a valid stored job back with all of its own fields gives the same job |
| Models.NewProposal | backend/models/index.js:38-45 | the proposal saves exactly when job, freelancer, cover letter, budget and timeline are all present; a new proposal is pending |
| Models.NewMessage | backend/models/index.js:48-53 | the message saves exactly when sender, recipient and content are present; a new message is unread |
| Stores.SelectIds | backend/routes/index.js:114-117 | returns exactly the identifiers of the documents that pass the filter, each once, in strictly decreasing (newest first) order |
| Routes.Authenticate | backend/routes/index.js:9-20 | no header, or an empty token once `Bearer ` is removed, gives 401 "Access denied"; a token that fails verification gives 401 "Invalid token"; the caller is admitted as `u` exactly when the token is the one signed for `u` |
| Routes.FindByEmail | backend/routes/index.js:27 | finds a user whose stored email is the lower-cased query, or `None` exactly when no such user exists |
| Routes.Register | backend/routes/index.js:23-42 | an already registered address gives 400 "User already exists" with nothing added; a 201 happens exactly when the address is new, a password is given and the user validates; then exactly one user is added, it is the user the schema builds from the body with the hashed password (empty profile, no rating, not verified), its password matches the hash, and the token verifies to the new identifier; for a new address, a missing password or a user the schema rejects gives 500; every failure leaves the database unchanged |
| Routes.Login | backend/routes/index.js:44-62 | a 200 needs a registered address whose hash matches the password, and its token verifies to that user; in a valid store such a pair always gives 200; an unknown address gives 400 "Invalid credentials", and every 400 is that same response; a registered address without a password gives 500 |
| Routes.ReadProfile | backend/routes/index.js:65-72 | answers 200 with the caller's document without the password, or `null` when the caller has no document |
| Routes.EditProfile | backend/routes/index.js:74-86 | only `name` (trimmed) and `profile` change, each only when a truthy value is sent; email, password, type, rating and verification stay, and no other document changes |
| Routes.Freelancers | backend/routes/index.js:88-97 | lists every freelancer and nobody else, without passwords |
| Routes.SearchJobs | backend/routes/index.js:100-123 | lists exactly the open jobs that match the category, any of the comma-separated skills and the case-insensitive search, each once, newest first |
| Routes.ReadJob | backend/routes/index.js:125-139 | answers 200 with the job exactly when it exists, otherwise 404 "Job not found" |
| Routes.CreateJob | backend/routes/index.js:141-150 | the new job is the body's fields validated by the schema with the caller as client, whatever the body says; a body `status` is kept; a 201 happens exactly when the job validates; nothing else changes, and a failure changes nothing |
| Routes.EditJob | backend/routes/index.js:152-163 | a missing job and another user's job both give 404 and change nothing; otherwise the saved job is the stored job with the body assigned over it and validated again, so every field the body carries (even `status`, `client` or `proposals`) replaces the job's and every other field stays; an owner's edit that fails validation gives 500 and changes nothing; no other job changes |
| Routes.RemoveJob | backend/routes/index.js:165-173 | a missing job and another user's job both give 404; otherwise only that job is removed, and the proposals stay |
| Routes.ClientJobIds | backend/routes/index.js:181 | holds exactly the identifiers of the jobs the caller owns |
| Routes.MyProposals | backend/routes/index.js:176-192 | a caller with no user document gets 500; a freelancer gets exactly their own proposals; anyone else gets exactly the proposals on jobs they own; newest first |
| Routes.SubmitProposal | backend/routes/index.js:194-221 | a missing job gives 404; an existing proposal by the caller on that job gives 400 "Already submitted proposal"; a 201 happens exactly when neither applies and the required fields are present, and otherwise the answer is 500; then exactly one pending proposal is added and its identifier is appended to the job's list |
| Routes.RequestedStatus | backend/routes/index.js:225-233 | the stored status is the enum value the body names, or pending when it names none |
| Routes.SetProposalStatus | backend/routes/index.js:223-244 | a missing proposal gives 404 first; a proposal whose job was deleted gives 500; another user gives 403 "Not authorized"; the owner naming a status outside the enum gets 500; a 200 happens exactly when the caller owns the job and the status is valid, from any current status; accepting moves the job to in-progress, and any other status leaves every job unchanged |
| Routes.Inbox | backend/routes/index.js:248-261 | lists exactly the messages the caller sent or received, newest first |
| Routes.SendMessage | backend/routes/index.js:263-281 | a 201 happens exactly when a recipient and content are given; then exactly one unread message from the caller is added |
| Routes.Serve | backend/routes/index.js:65-275 | each protected request reaches its own route handler, run as the authenticated caller; the profile, proposal and message reads leave the database unchanged |
| Routes.Handle | backend/routes/index.js:9-20 | a protected route refused by the middleware gets the 401 and leaves the database unchanged; an admitted one runs as the token's user; each of the five public requests reaches its own handler, and only registration can change the database |
| Properties.ServeKeepsValid | backend/routes/index.js:65-281 | every authenticated route keeps the invariant |
| Properties.HandleKeepsValid | backend/routes/index.js:9-281 | every request keeps the invariant: lower-case unique emails, one proposal per job and freelancer, proposals naming earlier jobs, jobs that pass validation; email uniqueness is the schema's unique index (backend/models/index.js:6) together with the check before registration |
| Properties.RunKeepsValid | backend/routes/index.js:23-281 | the invariant holds after any sequence of requests |
| Properties.SignedHeaderAdmits | backend/routes/index.js:11-15 | the header `Bearer <token signed for u>` admits `u` |
| Properties.PublicRoutesNeedNoToken | backend/routes/index.js:23-139 | the five public routes give the same answer whatever header is sent, and never 401 |
| Properties.CreatedJobBelongsToCaller | backend/routes/index.js:141-150 | a job created through the API (201) was created by an admitted caller and has that caller as its client, whatever the body says |
| Properties.ProtectedRoutesNeedAToken | backend/routes/index.js:12 | a protected request without a header gets 401 "Access denied" and changes nothing; with a signed token it runs as that user |
| Properties.RegisterThenLogin | backend/routes/index.js:23-62 | after a successful registration, login with the same address and password succeeds as the new user |
| Strings.LowerFoldsLatin1 | backend/models/index.js:6 | every Latin-1 capital (U+00C0 to U+00DE except U+00D7) lowers to the letter U+0020 above it and folds together with it |
| Properties.RegisterTwiceRefused | backend/routes/index.js:27-28 | registering an address again, in any ASCII or Latin-1 letter case, gives 400 and adds nobody |
| Properties.LoginWithoutPasswordRevealsAddress | backend/routes/index.js:48-51 | without a password, an unknown address gets 400 "Invalid credentials" while a registered one gets 500, so that request reveals which addresses are registered |
| Properties.LoginFailuresIndistinguishable | backend/routes/index.js:48-52 | an unknown address and a wrong password give the identical response |
| Properties.BudgetParameterIgnored | backend/routes/index.js:102 | the `budget` query parameter does not change the listing |
| Properties.VerbatimTitleIsFound | backend/routes/index.js:107-111 | an open job whose title contains the search text is listed |
| Properties.EmptyEditChangesNothing | backend/routes/index.js:157 | an owner's edit with an empty body saves the job unchanged |
| Properties.ReassignedJobLocksOutOwner | backend/routes/index.js:154-157 | an owner who assigns the job to someone else gets 404 on every later edit or delete |
| Properties.SecondProposalRefused | backend/routes/index.js:201-202 | a second proposal by the same freelancer on the same job gives 400 and changes nothing |
| Properties.OrphanedProposalCannotBeDecided | backend/routes/index.js:167 | after its job is deleted a proposal remains, and a status update on it gives 500 |
| Properties.OwnerAccepts | backend/routes/index.js:223-244 | the owner of the job a proposal names can always accept it: the answer is 200, the proposal is accepted and the job is in progress |
| Properties.AcceptanceScenario | backend/routes/index.js:141-244 | walks one job through its lifecycle: post a job, submit a proposal, have a duplicate refused, accept; the proposal ends accepted and the job in-progress |

## Left out

- Password hashing and tokens: salts, the work factor, `iat` and the 30-day expiry are not modelled. Tokens never expire and cannot be revoked. The hash is deterministic and injective. bcrypt reads only the first 72 bytes of a password, so in the program two passwords that share those bytes match the same hash; the model does not have that collision.
- Database I/O: the MongoDB connection is not modelled; `backend/server.js` is not part of this model. The responses carry identifiers where the code embeds documents through `populate` (the job's client and proposals, a proposal's job and freelancer, a message's sender and recipient), so the field projections `populate` applies to them are not modelled either. Two uses are modelled: `.select('-password')` is `Routes.Public`, and `.distinct('_id')` is `Routes.ClientJobIds`. `populate('job')` in the status update is also modelled, through the deleted job that makes that route answer 500.
- Malformed input: identifiers are numbers, so a malformed `:id` (a cast error, answered 500) cannot arise. Body and query values of the wrong JSON type (`null`, arrays, numbers where strings are expected) are not modelled.
- Job search: the search is modelled as plain substring matching with the letter case folded as `Strings.Lower` folds it. A search string containing regular-expression metacharacters (or an invalid pattern, answered 500) behaves differently in the code, and case folding beyond ASCII and Latin-1 capitals is not modelled.
- Strings.Lower: lowers the ASCII capitals and the Latin-1 capitals U+00C0 to U+00DE only. `toLowerCase` also lowers every other cased letter (Greek, Cyrillic, Latin Extended, and so on) and can change a string's length; those cases fold differently in the program.
- Properties.RegisterTwiceRefused: covers case variants within ASCII and Latin-1 only, because it rests on Strings.Lower. In the program an address that differs by the case of, say, a Greek letter is also refused.
- Crypto.CompareHash: the "only if" half is a property of the injective stand-in. bcrypt ignores bytes beyond the 72nd, so the program accepts some different passwords.
- Numbers: `budget.min`, `budget.max`, the proposal's `budget`, `hourlyRate` and `deadline` are JavaScript numbers but are modelled as integers. A fractional value such as `min: 99.5` is valid in the program but has no counterpart here. No route computes with these values, so no stated property depends on it.
- Routes.Freelancers: the order by `rating.average` (a floating-point number) is not stated; only membership is.
- Routes.Login: the "a matching password always gets 200" direction is stated only for a `Valid` store. It rests on email uniqueness, which the schema's unique index provides.
- Concurrency: the check-then-act races in registration and proposal submission are not modelled. Nor is a failure between saving a proposal and pushing it onto its job. Each request is one atomic step.
- Error detail: the `error.message` that register and login add to a 500 answer is not modelled. Every unexpected failure is the single "Server error" response.
- Status update without a `status` field: the model resets the proposal to `pending`. Mongoose unsets the path, and the schema default is what later reads return.
- Register or login without an email: the model treats the lookup as matching no user.
- Timestamps: `createdAt` and `updatedAt` are not stored. The identifier counter orders documents instead.
- Job fields: a client-chosen `_id` in a job body and `null` used to clear `deadline` in an edit are not modelled.
- Mark as read: the `isRead` flag is never set to true, because no route changes it.
- Frontend: the React pages and their API calls are not modelled, since they hold no backend logic.

=== FILE: base.dfy ===
/** Shared vocabulary of the model: document identifiers and optional values. */
module Base {

  /** A document identifier (`_id`). The store hands identifiers out from one
      counter in creation order, so a larger identifier means a later
      `createdAt`, and "newest first" is "largest identifier first". */
  type Id = nat

  /** A value that may be absent: a request field that was not sent, a lookup
      that found nothing. */
  datatype Option<+T> = None | Some(value: T)

  /** JavaScript truthiness of an optional string: present and not empty. */
  predicate Truthy(v: Option<string>)
  {
    v.Some? && |v.value| > 0
  }
}

=== FILE: crypto.dfy ===
/** Stand-ins for the two foreign libraries the routes call: `bcryptjs`
    (password hashing) and `jsonwebtoken` (bearer tokens). Only the laws the
    routes depend on are modelled: a password matches its own hash and no
    other, and a token verifies exactly to the user it was signed for. */
module Crypto {
  import opened Base
  import Decimal

  /** The bcrypt header of a cost-12 hash. */
  const HashHeader := "$2a$12$"

  /** `bcrypt.hash(password, 12)`, deterministic and without salt. */
  function Hash(password: string): (h: string)
    ensures |h| >= |HashHeader| && h[..|HashHeader|] == HashHeader
  {
    HashHeader + password
  }

  /** `bcrypt.compare(password, hash)`. */
  predicate Compare(password: string, hash: string)
  {
    hash == Hash(password)
  }

  /** A password matches the hash of a password exactly when the two are
      the same. */
  lemma CompareHash(password: string, stored: string)
    ensures Compare(password, Hash(stored)) <==> password == stored
  {
    if Compare(password, Hash(stored)) {
      assert password == Hash(password)[|HashHeader|..];
      assert stored == Hash(stored)[|HashHeader|..];
    }
  }

  /** `jwt.sign({ userId }, secret)`: the secret, a dot, and the identifier
      in decimal. */
  function Sign(secret: string, user: Id): string
  {
    secret + "." + Decimal.Show(user)
  }

  /** `jwt.verify(token, secret).userId`, `None` where the library throws. A
      token verifies to `user` if and only if it is the token signed for
      `user` under the same secret. */
  function Verify(secret: string, token: string): (r: Option<Id>)
    ensures forall user: Id :: r == Some(user) <==> token == Sign(secret, user)
  {
    var header := secret + ".";
    if |header| <= |token| && token[..|header|] == header then
      var r := Decimal.Parse(token[|header|..]);
      VerifyLaw(secret, token, r);
      r
    else
      assert forall user: Id :: Sign(secret, user)[..|header|] == header;
      None
  }

  lemma VerifyLaw(secret: string, token: string, r: Option<Id>)
    requires |secret + "."| <= |token| && token[..|secret + "."|] == secret + "."
    requires r == Decimal.Parse(token[|secret + "."|..])
    ensures forall user: Id :: r == Some(user) <==> token == Sign(secret, user)
  {
    var header := secret + ".";
    forall user: Id
      ensures r == Some(user) <==> token == Sign(secret, user)
    {
      Decimal.ParseIsInverseOfShow(token[|header|..], user);
      if token == Sign(secret, user) {
        assert token[|header|..] == Decimal.Show(user);
      }
      if token[|header|..] == Decimal.Show(user) {
        assert token == header + token[|header|..];
      }
    }
  }
}

=== FILE: decimal.dfy ===
/** Canonical decimal numerals: the textual form in which the token
    stand-in carries a user identifier. */
module Decimal {
  import opened Base

  predicate IsDigit(c: char)
  {
    '0' <= c <= '9'
  }

  predicate AllDigits(s: string)
  {
    forall i :: 0 <= i < |s| ==> IsDigit(s[i])
  }

  /** A numeral without superfluous leading zeros: "0", or digits not
      starting with '0'. */
  predicate Canonical(s: string)
  {
    |s| > 0 && AllDigits(s) && (|s| == 1 || s[0] != '0')
  }

  function DigitChar(d: nat): char
    requires d < 10
  {
    ('0' as int + d) as char
  }

  function DigitValue(c: char): nat
    requires IsDigit(c)
  {
    c as int - '0' as int
  }

  /** The value of a string of digits, most significant first. */
  function Value(s: string): nat
    requires AllDigits(s)
  {
    if s == [] then 0 else Value(s[..|s| - 1]) * 10 + DigitValue(s[|s| - 1])
  }

  /** The decimal numeral of `n`. */
  function Show(n: nat): (r: string)
    ensures Canonical(r)
  {
    if n < 10 then [DigitChar(n)]
    else
      var r := Show(n / 10) + [DigitChar(n % 10)];
      assert r[0] == Show(n / 10)[0];
      r
  }

  /** The number a canonical numeral denotes; `None` for anything else. */
  function Parse(s: string): (r: Option<nat>)
    ensures r.Some? <==> Canonical(s)
  {
    if Canonical(s) then Some(Value(s)) else None
  }

  lemma {:induction false} ValueOfShow(n: nat)
    ensures Value(Show(n)) == n
  {
    if n >= 10 {
      var r := Show(n);
      assert r[..|r| - 1] == Show(n / 10);
      ValueOfShow(n / 10);
    }
  }

  lemma {:induction false} LeadingDigitPositive(s: string)
    requires |s| > 0 && AllDigits(s) && s[0] != '0'
    ensures Value(s) > 0
    decreases |s|
  {
    if |s| > 1 {
      LeadingDigitPositive(s[..|s| - 1]);
    }
  }

  lemma {:induction false} ShowOfValue(s: string)
    requires Canonical(s)
    ensures Show(Value(s)) == s
    decreases |s|
  {
    if |s| > 1 {
      var p := s[..|s| - 1];
      LeadingDigitPositive(p);
      ShowOfValue(p);
      var n := Value(s);
      assert n / 10 == Value(p) && n % 10 == DigitValue(s[|s| - 1]);
      assert s == p + [s[|s| - 1]];
    }
  }

  /** Parsing inverts showing, and a numeral parses to `n` only when it is
      exactly the numeral of `n`. */
  lemma ParseIsInverseOfShow(s: string, n: nat)
    ensures Parse(s) == Some(n) <==> s == Show(n)
  {
    if s == Show(n) {
      ValueOfShow(n);
    }
    if Parse(s) == Some(n) {
      ShowOfValue(s);
    }
  }
}

=== FILE: models.dfy ===
/** The four document schemas: User, Job, Proposal and Message, with their
    enumerations, defaults and required fields. Each `New…` function is what
    `new Model({...}).save()` does with the given fields: it applies the
    setters (`trim`, `lowercase`) and defaults, runs the validators, and
    yields the stored document or `None` when validation fails. */
module Models {
  import opened Base
  import Strings

  // ---------------------------------------------------------------------
  // Enumerations

  datatype UserType = Client | Freelancer

  function UserTypeName(t: UserType): string
  {
    match t
    case Client => "client"
    case Freelancer => "freelancer"
  }

  /** The `enum` validator of `userType`: exactly the names of the values. */
  function ParseUserType(s: string): (r: Option<UserType>)
    ensures forall t :: r == Some(t) <==> UserTypeName(t) == s
  {
    if s == "client" then Some(Client)
    else if s == "freelancer" then Some(Freelancer)
    else None
  }

  datatype JobStatus = Open | InProgress | Completed | Cancelled

  function JobStatusName(t: JobStatus): string
  {
    match t
    case Open => "open"
    case InProgress => "in-progress"
    case Completed => "completed"
    case Cancelled => "cancelled"
  }

  /** The `enum` validator of a job's `status`. */
  function ParseJobStatus(s: string): (r: Option<JobStatus>)
    ensures forall t :: r == Some(t) <==> JobStatusName(t) == s
  {
    if s == "open" then Some(Open)
    else if s == "in-progress" then Some(InProgress)
    else if s == "completed" then Some(Completed)
    else if s == "cancelled" then Some(Cancelled)
    else None
  }

  datatype ProposalStatus = Pending | Accepted | Rejected

  function ProposalStatusName(t: ProposalStatus): string
  {
    match t
    case Pending => "pending"
    case Accepted => "accepted"
    case Rejected => "rejected"
  }

  /** The `enum` validator of a proposal's `status`. */
  function ParseProposalStatus(s: string): (r: Option<ProposalStatus>)
    ensures forall t :: r == Some(t) <==> ProposalStatusName(t) == s
  {
    if s == "pending" then Some(Pending)
    else if s == "accepted" then Some(Accepted)
    else if s == "rejected" then Some(Rejected)
    else None
  }

  datatype BudgetType = Fixed | Hourly

  function BudgetTypeName(t: BudgetType): string
  {
    match t
    case Fixed => "fixed"
    case Hourly => "hourly"
  }

  /** The `enum` validator of `budget.type`. */
  function ParseBudgetType(s: string): (r: Option<BudgetType>)
    ensures forall t :: r == Some(t) <==> BudgetTypeName(t) == s
  {
    if s == "fixed" then Some(Fixed)
    else if s == "hourly" then Some(Hourly)
    else None
  }

  // ---------------------------------------------------------------------
  // Users

  datatype Profile = Profile(bio: Option<string>, skills: seq<string>, hourlyRate: Option<int>,
                             location: Option<string>, phone: Option<string>)

  /** The `profile` sub-document of a new user: nothing set, no skills. */
  const EmptyProfile := Profile(None, [], None, None, None)

  /** `rating.average` is a JavaScript number; only its default 0 is used. */
  datatype Rating = Rating(average: real, count: int)

  const NoRating := Rating(0.0, 0)

  datatype User = User(id: Id, name: string, email: string, password: string, userType: UserType,
                       profile: Profile, rating: Rating, isVerified: bool)

  /** The minimum length the schema demands of the stored `password`. */
  const PasswordMinLength := 6

  /** Saving a new user. `name` is trimmed and `email` lower-cased before the
      required validators run; `password` is the value to be stored (the
      routes store a hash); `userType` must be one of the enum names. */
  function NewUser(id: Id, name: Option<string>, email: Option<string>, password: string,
                   userType: Option<string>): (r: Option<User>)
    ensures r.Some? <==>
              && name.Some? && |Strings.Trim(name.value)| > 0
              && Truthy(email)
              && |password| >= PasswordMinLength
              && userType.Some? && ParseUserType(userType.value).Some?
    ensures r.Some? ==>
              && r.value.id == id
              && r.value.name == Strings.Trim(name.value)
              && r.value.email == Strings.Lower(email.value)
              && r.value.password == password
              && UserTypeName(r.value.userType) == userType.value
              && r.value.profile == EmptyProfile
              && r.value.rating == NoRating
              && !r.value.isVerified
  {
    if name.None? || email.None? || userType.None? then None
    else
      var n := Strings.Trim(name.value);
      var e := Strings.Lower(email.value);
      match ParseUserType(userType.value)
      case None => None
      case Some(t) =>
        if |n| == 0 || |e| == 0 || |password| < PasswordMinLength then None
        else Some(User(id, n, e, password, t, EmptyProfile, NoRating, false))
  }

  // ---------------------------------------------------------------------
  // Jobs

  datatype Budget = Budget(kind: BudgetType, min: int, max: int)

  datatype Job = Job(id: Id, title: string, description: string, category: string, skills: seq<string>,
                     budget: Budget, deadline: Option<int>, client: Id, status: JobStatus,
                     proposals: seq<Id>)

  /** The fields of a job as they arrive in a request body, each possibly
      absent. `deadline` is a timestamp. */
  datatype BudgetFields = BudgetFields(kind: Option<string>, min: Option<int>, max: Option<int>)

  datatype JobFields = JobFields(title: Option<string>, description: Option<string>,
                                 category: Option<string>, skills: Option<seq<string>>,
                                 budget: Option<BudgetFields>, deadline: Option<int>, client: Option<Id>,
                                 status: Option<string>, proposals: Option<seq<Id>>)

  const NoFields := JobFields(None, None, None, None, None, None, None, None, None)

  /** The budget sub-document validates: type in the enum, `min` and `max`
      both present. No order between `min` and `max` is demanded. */
  function NewBudget(b: Option<BudgetFields>): (r: Option<Budget>)
    ensures r.Some? <==>
              && b.Some? && b.value.kind.Some? && ParseBudgetType(b.value.kind.value).Some?
              && b.value.min.Some? && b.value.max.Some?
    ensures r.Some? ==>
              && BudgetTypeName(r.value.kind) == b.value.kind.value
              && r.value.min == b.value.min.value && r.value.max == b.value.max.value
  {
    if b.None? || b.value.kind.None? || b.value.min.None? || b.value.max.None? then None
    else match ParseBudgetType(b.value.kind.value)
      case None => None
      case Some(k) => Some(Budget(k, b.value.min.value, b.value.max.value))
  }

  /** Saving a job document with the given fields: title, description,
      category, budget and client are required, `status` must be in the enum
      and defaults to open, `skills` and `proposals` default to empty. */
  function NewJob(id: Id, f: JobFields): (r: Option<Job>)
    ensures r.Some? <==>
              && Truthy(f.title) && Truthy(f.description) && Truthy(f.category)
              && NewBudget(f.budget).Some?
              && f.client.Some?
              && (f.status.None? || ParseJobStatus(f.status.value).Some?)
    ensures r.Some? ==>
              && r.value.id == id
              && r.value.title == f.title.value
              && r.value.description == f.description.value
              && r.value.category == f.category.value
              && r.value.skills == (if f.skills.Some? then f.skills.value else [])
              && Some(r.value.budget) == NewBudget(f.budget)
              && r.value.deadline == f.deadline
              && r.value.client == f.client.value
              && r.value.proposals == (if f.proposals.Some? then f.proposals.value else [])
    ensures r.Some? && f.status.None? ==> r.value.status == Open
    ensures r.Some? && f.status.Some? ==> JobStatusName(r.value.status) == f.status.value
  {
    if !Truthy(f.title) || !Truthy(f.description) || !Truthy(f.category) || f.client.None? then None
    else
      var status := if f.status.None? then Some(Open) else ParseJobStatus(f.status.value);
      match (NewBudget(f.budget), status)
      case (Some(b), Some(st)) =>
        Some(Job(id, f.title.value, f.description.value, f.category.value,
                 if f.skills.Some? then f.skills.value else [], b, f.deadline, f.client.value, st,
                 if f.proposals.Some? then f.proposals.value else []))
      case _ => None
  }

  /** A job that passes the schema's required validators. */
  predicate JobSaved(j: Job)
  {
    |j.title| > 0 && |j.description| > 0 && |j.category| > 0
  }

  /** A stored job seen as a complete set of fields. */
  function JobToFields(j: Job): JobFields
  {
    JobFields(Some(j.title), Some(j.description), Some(j.category), Some(j.skills),
              Some(BudgetFields(Some(BudgetTypeName(j.budget.kind)), Some(j.budget.min), Some(j.budget.max))),
              j.deadline, Some(j.client), Some(JobStatusName(j.status)), Some(j.proposals))
  }

  /** `Object.assign(job, patch)`: every field the patch carries replaces the
      job's (the nested budget as a whole), every other field stays. */
  function Assign(base: JobFields, patch: JobFields): JobFields
  {
    JobFields(
      if patch.title.Some? then patch.title else base.title,
      if patch.description.Some? then patch.description else base.description,
      if patch.category.Some? then patch.category else base.category,
      if patch.skills.Some? then patch.skills else base.skills,
      if patch.budget.Some? then patch.budget else base.budget,
      if patch.deadline.Some? then patch.deadline else base.deadline,
      if patch.client.Some? then patch.client else base.client,
      if patch.status.Some? then patch.status else base.status,
      if patch.proposals.Some? then patch.proposals else base.proposals)
  }

  /** Saving a stored job back unchanged gives the same job: `JobToFields`
      loses nothing that `NewJob` keeps. */
  lemma JobFieldsRoundTrip(j: Job)
    requires JobSaved(j)
    ensures NewJob(j.id, JobToFields(j)) == Some(j)
  {
    var f := JobToFields(j);
    assert ParseBudgetType(BudgetTypeName(j.budget.kind)) == Some(j.budget.kind);
    assert ParseJobStatus(JobStatusName(j.status)) == Some(j.status);
  }

  // ---------------------------------------------------------------------
  // Proposals

  datatype Proposal = Proposal(id: Id, job: Id, freelancer: Id, coverLetter: string, budget: int,
                               timeline: string, status: ProposalStatus)

  /** Saving a new proposal: job, freelancer, cover letter, budget and
      timeline are all required; the status starts as pending. */
  function NewProposal(id: Id, job: Option<Id>, freelancer: Option<Id>, coverLetter: Option<string>,
                       budget: Option<int>, timeline: Option<string>): (r: Option<Proposal>)
    ensures r.Some? <==>
              job.Some? && freelancer.Some? && Truthy(coverLetter) && budget.Some? && Truthy(timeline)
    ensures r.Some? ==>
              && r.value.id == id
              && r.value.job == job.value && r.value.freelancer == freelancer.value
              && r.value.coverLetter == coverLetter.value && r.value.budget == budget.value
              && r.value.timeline == timeline.value
              && r.value.status == Pending
  {
    if job.Some? && freelancer.Some? && Truthy(coverLetter) && budget.Some? && Truthy(timeline) then
      Some(Proposal(id, job.value, freelancer.value, coverLetter.value, budget.value, timeline.value, Pending))
    else None
  }

  // ---------------------------------------------------------------------
  // Messages

  datatype Message = Message(id: Id, sender: Id, recipient: Id, content: string, isRead: bool)

  /** Saving a new message: sender, recipient and content are required; a
      new message is unread. */
  function NewMessage(id: Id, sender: Option<Id>, recipient: Option<Id>, content: Option<string>)
    : (r: Option<Message>)
    ensures r.Some? <==> sender.Some? && recipient.Some? && Truthy(content)
    ensures r.Some? ==>
              && r.value.id == id && r.value.sender == sender.value && r.value.recipient == recipient.value
              && r.value.content == content.value && !r.value.isRead
  {
    if sender.Some? && recipient.Some? && Truthy(content) then
      Some(Message(id, sender.value, recipient.value, content.value, false))
    else None
  }
}

=== FILE: properties.dfy ===
/** Properties that relate several requests: the database invariant every
    route keeps, the login and registration round trip, the answers an
    attacker cannot tell apart, and the proposal lifecycle end to end. */
module Properties {
  import opened Base
  import opened Models
  import opened Stores
  import opened Routes
  import Strings
  import Crypto

  // ---------------------------------------------------------------------
  // The database invariant

  lemma UsersUntouched(s: Store, t: Store)
    requires EmailsLowerCase(s) && EmailsUnique(s)
    requires forall k :: k in t.users ==> k in s.users && t.users[k].email == s.users[k].email
    ensures EmailsLowerCase(t) && EmailsUnique(t)
  {
  }

  lemma ProposalsUntouched(s: Store, t: Store)
    requires OneProposalPerPair(s) && ProposalsNameEarlierJobs(s)
    requires t.proposals == s.proposals && s.next <= t.next
    ensures OneProposalPerPair(t) && ProposalsNameEarlierJobs(t)
  {
  }

  lemma RegisterKeepsValid(cfg: Config, s: Store, b: RegisterBody)
    requires Valid(s)
    ensures Valid(Register(cfg, s, b).store)
  {
    var r := Register(cfg, s, b);
    var t := r.store;
    ProposalsUntouched(s, t);
    if r.response.status == 201 {
      var e := Strings.Lower(b.email.value);
      Strings.LowerIdempotent(b.email.value);
      assert !Registered(s, b.email.value);
      NewEmailKeepsEmails(s, t, s.next, e);
    }
  }

  /** Adding one user under a fresh key with a lower-case address no other
      user has keeps the addresses lower-case and unique. */
  lemma NewEmailKeepsEmails(s: Store, t: Store, n: Id, e: string)
    requires EmailsLowerCase(s) && EmailsUnique(s)
    requires n !in s.users && t.users.Keys == s.users.Keys + {n}
    requires forall k :: k in s.users ==> t.users[k] == s.users[k]
    requires t.users[n].email == e && Strings.Lower(e) == e
    requires forall k :: k in s.users ==> s.users[k].email != e
    ensures EmailsLowerCase(t) && EmailsUnique(t)
  {
    forall x, y | x in t.users && y in t.users && t.users[x].email == t.users[y].email
      ensures x == y
    {
      if x != n && y != n {
        assert s.users[x].email == s.users[y].email;
      }
    }
  }

  lemma EditProfileKeepsValid(s: Store, uid: Id, b: ProfileBody)
    requires Valid(s)
    ensures Valid(EditProfile(s, uid, b).store)
  {
    var t := EditProfile(s, uid, b).store;
    UsersUntouched(s, t);
    ProposalsUntouched(s, t);
  }

  lemma CreateJobKeepsValid(s: Store, uid: Id, f: JobFields)
    requires Valid(s)
    ensures Valid(CreateJob(s, uid, f).store)
  {
    var t := CreateJob(s, uid, f).store;
    UsersUntouched(s, t);
    ProposalsUntouched(s, t);
  }

  lemma EditJobKeepsValid(s: Store, uid: Id, id: Id, patch: JobFields)
    requires Valid(s)
    ensures Valid(EditJob(s, uid, id, patch).store)
  {
    var t := EditJob(s, uid, id, patch).store;
    UsersUntouched(s, t);
    ProposalsUntouched(s, t);
  }

  lemma RemoveJobKeepsValid(s: Store, uid: Id, id: Id)
    requires Valid(s)
    ensures Valid(RemoveJob(s, uid, id).store)
  {
    var t := RemoveJob(s, uid, id).store;
    UsersUntouched(s, t);
    ProposalsUntouched(s, t);
  }

  lemma SendMessageKeepsValid(s: Store, uid: Id, b: MessageBody)
    requires Valid(s)
    ensures Valid(SendMessage(s, uid, b).store)
  {
    var t := SendMessage(s, uid, b).store;
    UsersUntouched(s, t);
    ProposalsUntouched(s, t);
  }

  lemma SubmitProposalKeepsValid(s: Store, uid: Id, b: ProposalBody)
    requires Valid(s)
    ensures Valid(SubmitProposal(s, uid, b).store)
  {
    var r := SubmitProposal(s, uid, b);
    var t := r.store;
    UsersUntouched(s, t);
    if r.response.status == 201 {
      var jid := b.jobId.value;
      assert !HasProposal(s, jid, uid);
      assert t.proposals[s.next].job == jid && t.proposals[s.next].freelancer == uid;
      assert OneProposalPerPair(t) by {
        forall x, y | x in t.proposals && y in t.proposals
                      && t.proposals[x].job == t.proposals[y].job
                      && t.proposals[x].freelancer == t.proposals[y].freelancer
          ensures x == y
        {
          if x != s.next && y != s.next {
            assert s.proposals[x].job == s.proposals[y].job;
          }
        }
      }
      assert JobsValidate(t) by {
        forall k | k in t.jobs ensures JobSaved(t.jobs[k]) {
          assert k in s.jobs;
        }
      }
    } else {
      ProposalsUntouched(s, t);
    }
  }

  lemma SetProposalStatusKeepsValid(s: Store, uid: Id, pid: Id, status: Option<string>)
    requires Valid(s)
    ensures Valid(SetProposalStatus(s, uid, pid, status).store)
  {
    var r := SetProposalStatus(s, uid, pid, status);
    var t := r.store;
    UsersUntouched(s, t);
    if r.response.status == 200 {
      var p := s.proposals[pid];
      assert OneProposalPerPair(t) by {
        forall x, y | x in t.proposals && y in t.proposals
                      && t.proposals[x].job == t.proposals[y].job
                      && t.proposals[x].freelancer == t.proposals[y].freelancer
          ensures x == y
        {
          assert s.proposals[x].job == s.proposals[y].job;
        }
      }
      assert JobsValidate(t) by {
        forall k | k in t.jobs ensures JobSaved(t.jobs[k]) {
          assert k in s.jobs;
        }
      }
    } else {
      ProposalsUntouched(s, t);
    }
  }

  /** Every request, admitted or refused, leaves a valid database valid. */
  lemma HandleKeepsValid(cfg: Config, s: Store, header: Option<string>, req: Request)
    requires Valid(s)
    ensures Valid(Handle(cfg, s, header, req).store)
  {
    if !Protected(req) {
      if req.PostRegister? {
        RegisterKeepsValid(cfg, s, req.register);
      }
    } else if Authenticate(cfg, header).Admit? {
      ServeKeepsValid(cfg, s, Authenticate(cfg, header).user, req);
    }
  }

  lemma ServeKeepsValid(cfg: Config, s: Store, uid: Id, req: Request)
    requires Valid(s) && Protected(req)
    ensures Valid(Serve(cfg, s, uid, req).store)
  {
    match req
    case PutProfile(b) => EditProfileKeepsValid(s, uid, b);
    case PostJob(f) => CreateJobKeepsValid(s, uid, f);
    case PutJob(id, patch) => EditJobKeepsValid(s, uid, id, patch);
    case DeleteJob(id) => RemoveJobKeepsValid(s, uid, id);
    case PostProposal(b) => SubmitProposalKeepsValid(s, uid, b);
    case PutProposalStatus(id, st) => SetProposalStatusKeepsValid(s, uid, id, st);
    case PostMessage(b) => SendMessageKeepsValid(s, uid, b);
    case _ =>
  }

  /** The invariant holds after any sequence of requests from an empty
      database. */
  lemma {:induction false} RunKeepsValid(cfg: Config, s: Store, calls: seq<Call>)
    requires Valid(s)
    ensures Valid(Run(cfg, s, calls))
    decreases |calls|
  {
    if calls != [] {
      HandleKeepsValid(cfg, s, calls[0].header, calls[0].request);
      RunKeepsValid(cfg, Handle(cfg, s, calls[0].header, calls[0].request).store, calls[1..]);
    }
  }

  lemma EmptyIsValid()
    ensures Valid(Empty)
  {
  }

  // ---------------------------------------------------------------------
  // Authentication

  /** A header carrying `Bearer ` and a token signed for `u` admits `u`. */
  lemma SignedHeaderAdmits(cfg: Config, u: Id)
    ensures Authenticate(cfg, Some("Bearer " + Crypto.Sign(cfg.secret, u))) == Admit(u)
  {
    Strings.ReplaceLeadingPattern("Bearer ", Crypto.Sign(cfg.secret, u));
  }

  /** A protected request with a token signed for `u` is served as `u`; the
      same request without a header is refused and changes nothing. */
  lemma ProtectedRoutesNeedAToken(cfg: Config, s: Store, u: Id, req: Request)
    requires Protected(req)
    ensures Handle(cfg, s, Some("Bearer " + Crypto.Sign(cfg.secret, u)), req) == Serve(cfg, s, u, req)
    ensures Handle(cfg, s, None, req) == Step(s, Fail(401, "Access denied"))
  {
    SignedHeaderAdmits(cfg, u);
  }

  /** The public routes are mounted without the middleware: whatever header
      is sent, or none, the answer is the one given without a header. */
  lemma PublicRoutesNeedNoToken(cfg: Config, s: Store, header: Option<string>, req: Request)
    requires !Protected(req)
    ensures Handle(cfg, s, header, req) == Handle(cfg, s, None, req)
    ensures Handle(cfg, s, header, req).response.status != 401
  {
    match req
    case PostRegister(b) =>
    case PostLogin(b) =>
    case GetFreelancers =>
    case GetJobs(q) =>
    case GetJob(id) =>
  }

  /** A job created through the API belongs to the authenticated caller,
      whatever client the body names. */
  lemma CreatedJobBelongsToCaller(cfg: Config, s: Store, header: Option<string>, body: JobFields)
    requires Handle(cfg, s, header, PostJob(body)).response.status == 201
    ensures Authenticate(cfg, header).Admit?
    ensures Handle(cfg, s, header, PostJob(body)).store.jobs[s.next].client == Authenticate(cfg, header).user
  {
  }

  /** Without a password, login tells the two kinds of address apart: an
      unknown address gets the usual 400, while a registered one reaches
      the password comparison, which throws and gives 500. */
  lemma LoginWithoutPasswordRevealsAddress(cfg: Config, s: Store, known: string, unknown: string)
    requires Registered(s, known) && !Registered(s, unknown)
    ensures Login(cfg, s, LoginBody(Some(unknown), None)) == Fail(400, "Invalid credentials")
    ensures Login(cfg, s, LoginBody(Some(known), None)) == ServerError
  {
  }

  /** Registering and then logging in with the same address (in any case)
      and password succeeds, as the newly registered user. */
  lemma RegisterThenLogin(cfg: Config, s: Store, b: RegisterBody)
    requires Valid(s)
    requires Register(cfg, s, b).response.status == 201
    ensures var s' := Register(cfg, s, b).store;
            var r := Login(cfg, s', LoginBody(b.email, b.password));
            && r.status == 200
            && r.body.user.id == s.next
            && Crypto.Verify(cfg.secret, r.body.token) == Some(s.next)
  {
    var s' := Register(cfg, s, b).store;
    RegisterKeepsValid(cfg, s, b);
    Strings.LowerIdempotent(b.email.value);
    var u := s'.users[s.next];
    assert u.email == Strings.Lower(b.email.value);
    var r := Login(cfg, s', LoginBody(b.email, b.password));
    assert r.status == 200;
    assert s'.users[r.body.user.id].email == u.email;
  }

  /** Once an address is registered, registering it again in any letter case
      is refused and adds nobody. */
  lemma RegisterTwiceRefused(cfg: Config, s: Store, b: RegisterBody, again: RegisterBody)
    requires Register(cfg, s, b).response.status == 201
    requires again.email.Some? && Strings.Lower(again.email.value) == Strings.Lower(b.email.value)
    ensures var s' := Register(cfg, s, b).store;
            Register(cfg, s', again) == Step(s', Fail(400, "User already exists"))
  {
    var s' := Register(cfg, s, b).store;
    assert s'.users[s.next].email == Strings.Lower(again.email.value);
    assert Registered(s', again.email.value);
  }

  /** An unregistered address and a wrong password for a registered one get
      the very same response, so login does not reveal which addresses are
      registered. */
  lemma LoginFailuresIndistinguishable(cfg: Config, s: Store, unknown: string, password: Option<string>,
                                       known: string, wrong: string)
    requires !Registered(s, unknown)
    requires forall k :: k in s.users && s.users[k].email == Strings.Lower(known) ==>
               !Crypto.Compare(wrong, s.users[k].password)
    ensures Login(cfg, s, LoginBody(Some(unknown), password)) == Login(cfg, s, LoginBody(Some(known), Some(wrong)))
    ensures Login(cfg, s, LoginBody(Some(unknown), password)) == Fail(400, "Invalid credentials")
  {
  }

  // ---------------------------------------------------------------------
  // Jobs

  lemma {:induction false} SelectIdsRespectsEqualFilters<T>(m: map<Id, T>, keep: T -> bool, keep': T -> bool, n: nat)
    requires forall x :: keep(x) == keep'(x)
    ensures SelectIds(m, keep, n) == SelectIds(m, keep', n)
  {
    if n > 0 {
      SelectIdsRespectsEqualFilters(m, keep, keep', n - 1);
    }
  }

  /** The `budget` query parameter has no effect on the listing. */
  lemma BudgetParameterIgnored(s: Store, q: JobQuery, budget: Option<string>)
    ensures SearchJobs(s, q.(budget := budget)) == SearchJobs(s, q)
  {
    var q' := q.(budget := budget);
    SelectIdsRespectsEqualFilters(s.jobs, (j: Job) => Listed(j, q'), (j: Job) => Listed(j, q), s.next);
  }

  /** A job whose title holds the search text verbatim is listed when it is
      open and no other filter is given. */
  lemma VerbatimTitleIsFound(s: Store, id: Id, search: string, at: int)
    requires id in s.jobs && s.jobs[id].status == Open
    requires Strings.OccursAt(search, s.jobs[id].title, at)
    ensures var r := SearchJobs(s, JobQuery(None, None, None, Some(search)));
            exists i :: 0 <= i < |r| && r[i].id == id
  {
    Strings.VerbatimOccurrenceFound(s.jobs[id].title, search, at);
    var q := JobQuery(None, None, None, Some(search));
    assert Listed(s.jobs[id], q);
    var r := SearchJobs(s, q);
    assert exists i :: 0 <= i < |r| && r[i].id == id;
  }

  /** Editing one's own job with an empty body saves it unchanged. */
  lemma EmptyEditChangesNothing(s: Store, uid: Id, id: Id)
    requires Valid(s) && Owns(s, uid, id)
    ensures EditJob(s, uid, id, NoFields) == Step(s, Response(200, JobDoc(s.jobs[id])))
  {
    var j := s.jobs[id];
    assert Assign(JobToFields(j), NoFields) == JobToFields(j);
    JobFieldsRoundTrip(j);
    assert s.jobs[id := j] == s.jobs;
  }

  /** Because an edit may overwrite `client`, an owner who hands a job to
      someone else can neither edit nor delete it afterwards. */
  lemma ReassignedJobLocksOutOwner(s: Store, uid: Id, other: Id, id: Id, patch: JobFields, later: JobFields)
    requires other != uid
    requires patch.client == Some(other)
    requires EditJob(s, uid, id, patch).response.status == 200
    ensures var s' := EditJob(s, uid, id, patch).store;
            && EditJob(s', uid, id, later) == Step(s', Fail(404, "Job not found"))
            && RemoveJob(s', uid, id) == Step(s', Fail(404, "Job not found"))
  {
  }

  // ---------------------------------------------------------------------
  // The proposal lifecycle

  /** A second proposal by the same freelancer on the same job is refused
      and the job's proposal list keeps its length. */
  lemma SecondProposalRefused(s: Store, uid: Id, b: ProposalBody, again: ProposalBody)
    requires SubmitProposal(s, uid, b).response.status == 201
    requires again.jobId == b.jobId
    ensures var s' := SubmitProposal(s, uid, b).store;
            && SubmitProposal(s', uid, again) == Step(s', Fail(400, "Already submitted proposal"))
            && |s'.jobs[b.jobId.value].proposals| == |s.jobs[b.jobId.value].proposals| + 1
  {
    var s' := SubmitProposal(s, uid, b).store;
    assert s'.proposals[s.next].job == b.jobId.value && s'.proposals[s.next].freelancer == uid;
    assert HasProposal(s', again.jobId.value, uid);
  }

  /** Deleting a job leaves its proposals behind, and a later status update
      on one of them fails with a server error. */
  lemma OrphanedProposalCannotBeDecided(s: Store, uid: Id, pid: Id, status: Option<string>)
    requires pid in s.proposals && Owns(s, uid, s.proposals[pid].job)
    ensures var s' := RemoveJob(s, uid, s.proposals[pid].job).store;
            && pid in s'.proposals
            && SetProposalStatus(s', uid, pid, status) == Step(s', ServerError)
  {
  }

  /** The job posted in the scenario below: fixed budget, 100 to 200. */
  function SiteJob(): JobFields
  {
    JobFields(Some("Build a site"), Some("React front end"), Some("web"), Some(["react"]),
              Some(BudgetFields(Some("fixed"), Some(100), Some(200))), None, None, None, None)
  }

  /** A bid of 150 on job `job`. */
  function SiteBid(job: Id): ProposalBody
  {
    ProposalBody(Some(job), Some("I can do it"), Some(150), Some("2 weeks"))
  }

  /** The owner of a job accepting a proposal on it: the request succeeds,
      the proposal becomes accepted and the job moves to in-progress. */
  lemma OwnerAccepts(s: Store, client: Id, pid: Id)
    requires pid in s.proposals && Owns(s, client, s.proposals[pid].job)
    ensures
      var r := SetProposalStatus(s, client, pid, Some("accepted"));
      && r.response.status == 200
      && r.store.proposals[pid].status == Accepted
      && r.store.jobs[s.proposals[pid].job].status == InProgress
  {
    assert RequestedStatus(Some("accepted")) == Some(Accepted);
  }

  /** The lifecycle of one job: a client posts a fixed-budget job, a
      freelancer bids on it, a second bid by the same freelancer is refused,
      and the client accepts the first bid, which moves the job to
      in-progress. */
  lemma AcceptanceScenario(s: Store, client: Id, freelancer: Id)
    requires Valid(s)
    ensures
      var c := CreateJob(s, client, SiteJob());
      var p1 := SubmitProposal(c.store, freelancer, SiteBid(s.next));
      var p2 := SubmitProposal(p1.store, freelancer, SiteBid(s.next));
      var accept := SetProposalStatus(p2.store, client, c.store.next, Some("accepted"));
      && c.response.status == 201 && c.store.jobs[s.next].status == Open
      && p1.response.status == 201
      && p2 == Step(p1.store, Fail(400, "Already submitted proposal"))
      && accept.response.status == 200
      && accept.store.proposals[c.store.next].status == Accepted
      && accept.store.jobs[s.next].status == InProgress
  {
    var job := s.next;
    var c := CreateJob(s, client, SiteJob());
    assert NewBudget(SiteJob().budget).Some?;
    assert c.response.status == 201;
    var p1 := SubmitProposal(c.store, freelancer, SiteBid(job));
    assert !HasProposal(c.store, job, freelancer);
    assert p1.response.status == 201;
    SecondProposalRefused(c.store, freelancer, SiteBid(job), SiteBid(job));
    var p2 := SubmitProposal(p1.store, freelancer, SiteBid(job));
    assert p2.store.proposals[c.store.next].job == job;
    OwnerAccepts(p2.store, client, c.store.next);
  }
}

=== FILE: routes.dfy ===
/** The request handlers of the REST API, each a pure function from the
    database, the acting user (for routes behind the `auth` middleware) and
    the request to a response and the database afterwards. Every request is
    one atomic step; a handler that fails leaves the database as it was. */
module Routes {
  import opened Base
  import opened Models
  import opened Stores
  import Strings
  import Crypto

  // ---------------------------------------------------------------------
  // Responses

  /** The server configuration the handlers read: the token secret. */
  datatype Config = Config(secret: string)

  /** `{ id, name, email, userType }` as returned by register and login. */
  datatype UserSummary = UserSummary(id: Id, name: string, email: string, userType: UserType)

  /** A user as returned with `.select('-password')`. */
  datatype PublicUser = PublicUser(id: Id, name: string, email: string, userType: UserType,
                                   profile: Profile, rating: Rating, isVerified: bool)

  function Summary(u: User): UserSummary
  {
    UserSummary(u.id, u.name, u.email, u.userType)
  }

  function Public(u: User): PublicUser
  {
    PublicUser(u.id, u.name, u.email, u.userType, u.profile, u.rating, u.isVerified)
  }

  datatype Body =
    | Note(message: string)
    | Session(token: string, user: UserSummary)
    | Account(account: Option<PublicUser>)
    | Accounts(accounts: seq<PublicUser>)
    | JobList(jobs: seq<Job>)
    | JobDoc(job: Job)
    | ProposalList(proposals: seq<Proposal>)
    | ProposalDoc(proposal: Proposal)
    | MessageList(messages: seq<Message>)
    | MessageDoc(sent: Message)

  datatype Response = Response(status: nat, body: Body)

  /** A JSON error `{ message }` with the given status. */
  function Fail(status: nat, message: string): Response
  {
    Response(status, Note(message))
  }

  /** The generic `catch` answer; here it stands for a failed schema
      validation or a runtime error in a handler. */
  const ServerError := Fail(500, "Server error")

  /** A handled request: the database afterwards and the response. */
  datatype Step = Step(store: Store, response: Response)

  // ---------------------------------------------------------------------
  // The auth middleware

  datatype Gate = Admit(user: Id) | Refuse(response: Response)

  /** `header.replace('Bearer ', '')`: the first occurrence of the scheme
      prefix is removed wherever it is, and nothing happens without one. */
  function BearerToken(header: string): string
  {
    Strings.ReplaceFirst(header, "Bearer ", "")
  }

  /** The `auth` middleware. A missing header, or one that is empty once the
      prefix is removed, gets 401 "Access denied"; a token that does not
      verify gets 401 "Invalid token"; otherwise the request runs as the
      user the token was signed for. */
  function Authenticate(cfg: Config, header: Option<string>): (g: Gate)
    ensures header.None? ==> g == Refuse(Fail(401, "Access denied"))
    ensures header.Some? && BearerToken(header.value) == [] ==> g == Refuse(Fail(401, "Access denied"))
    ensures header.Some? && BearerToken(header.value) != [] && Crypto.Verify(cfg.secret, BearerToken(header.value)).None?
            ==> g == Refuse(Fail(401, "Invalid token"))
    ensures g.Refuse? ==> g.response.status == 401
    ensures forall u: Id :: g == Admit(u) <==> header.Some? && BearerToken(header.value) == Crypto.Sign(cfg.secret, u)
  {
    if header.None? then Refuse(Fail(401, "Access denied"))
    else
      var token := BearerToken(header.value);
      if token == [] then Refuse(Fail(401, "Access denied"))
      else match Crypto.Verify(cfg.secret, token)
        case None => Refuse(Fail(401, "Invalid token"))
        case Some(u) => Admit(u)
  }

  // ---------------------------------------------------------------------
  // Registration and login

  datatype RegisterBody = RegisterBody(name: Option<string>, email: Option<string>, password: Option<string>,
                                       userType: Option<string>)

  datatype LoginBody = LoginBody(email: Option<string>, password: Option<string>)

  /** Some user is stored under `email`; the schema's `lowercase` setter also
      applies to the query, so the address is compared lower-cased. */
  predicate Registered(s: Store, email: string)
  {
    exists k :: k in s.users && s.users[k].email == Strings.Lower(email)
  }

  /** `User.findOne({ email })`. */
  function FindByEmail(s: Store, email: string): (r: Option<Id>)
    ensures r.Some? ==> r.value in s.users && s.users[r.value].email == Strings.Lower(email)
    ensures r.None? <==> !Registered(s, email)
  {
    var ids := SelectIds(s.users, (u: User) => u.email == Strings.Lower(email), s.next);
    if |ids| > 0 then Some(ids[0]) else None
  }

  /** POST /auth/register. An address already registered is refused with 400
      before anything else; a missing password or a document the schema
      rejects is a server error. Otherwise exactly one user is added, its
      password stored hashed, and the response carries a token for it. */
  function Register(cfg: Config, s: Store, b: RegisterBody): (r: Step)
    ensures r.store.next >= s.next
    ensures r.store.jobs == s.jobs && r.store.proposals == s.proposals && r.store.messages == s.messages
    ensures b.email.Some? && Registered(s, b.email.value) ==> r == Step(s, Fail(400, "User already exists"))
    ensures !(b.email.Some? && Registered(s, b.email.value)) && r.response.status != 201 ==>
              r == Step(s, ServerError)
    ensures r.response.status == 201 <==>
              && !(b.email.Some? && Registered(s, b.email.value))
              && b.password.Some?
              && b.name.Some? && |Strings.Trim(b.name.value)| > 0
              && Truthy(b.email)
              && b.userType.Some? && ParseUserType(b.userType.value).Some?
    ensures r.response.status != 201 ==> r.store == s
    ensures r.response.status == 201 ==>
              && s.next !in s.users
              && r.store.users.Keys == s.users.Keys + {s.next}
              && (forall k :: k in s.users ==> r.store.users[k] == s.users[k])
              && (var u := r.store.users[s.next];
                  && Some(u) == NewUser(s.next, b.name, b.email, Crypto.Hash(b.password.value), b.userType)
                  && u.profile == EmptyProfile
                  && u.email == Strings.Lower(b.email.value)
                  && u.name == Strings.Trim(b.name.value)
                  && UserTypeName(u.userType) == b.userType.value
                  && Crypto.Compare(b.password.value, u.password)
                  && u.rating == NoRating && !u.isVerified
                  && r.response.body.Session?
                  && r.response.body.user == Summary(u)
                  && Crypto.Verify(cfg.secret, r.response.body.token) == Some(s.next))
  {
    if b.email.Some? && FindByEmail(s, b.email.value).Some? then Step(s, Fail(400, "User already exists"))
    else if b.password.None? then Step(s, ServerError)
    else match NewUser(s.next, b.name, b.email, Crypto.Hash(b.password.value), b.userType)
      case None => Step(s, ServerError)
      case Some(u) => SignUp(cfg, s, u)
  }

  /** Saving a validated new user and answering with a token for it. */
  function SignUp(cfg: Config, s: Store, u: User): (r: Step)
    requires u.id == s.next
    ensures r.response.status == 201 && r.store.next == s.next + 1
    ensures r.store.jobs == s.jobs && r.store.proposals == s.proposals && r.store.messages == s.messages
    ensures s.next !in s.users && r.store.users.Keys == s.users.Keys + {s.next}
    ensures forall k :: k in s.users ==> r.store.users[k] == s.users[k]
    ensures r.store.users[s.next] == u
    ensures r.response.body.Session? && r.response.body.user == Summary(u)
    ensures Crypto.Verify(cfg.secret, r.response.body.token) == Some(s.next)
  {
    Step(AddUser(s, u), Response(201, Session(Crypto.Sign(cfg.secret, u.id), Summary(u))))
  }

  /** POST /auth/login. The response is 200 with a token exactly when the
      address is registered and the password matches its hash; an unknown
      address and a wrong password both get the same 400 "Invalid
      credentials". */
  function Login(cfg: Config, s: Store, b: LoginBody): (r: Response)
    ensures r.status == 200 ==>
              && b.email.Some? && b.password.Some?
              && exists k :: k in s.users && s.users[k].email == Strings.Lower(b.email.value)
                             && Crypto.Compare(b.password.value, s.users[k].password)
    ensures r.status == 200 ==>
              && r.body.Session?
              && r.body.user.id in s.users
              && r.body.user == Summary(s.users[r.body.user.id])
              && r.body.user.email == Strings.Lower(b.email.value)
              && Crypto.Verify(cfg.secret, r.body.token) == Some(r.body.user.id)
    ensures Valid(s) && b.email.Some? && b.password.Some?
            && (exists k :: k in s.users && s.users[k].email == Strings.Lower(b.email.value)
                            && Crypto.Compare(b.password.value, s.users[k].password))
            ==> r.status == 200
    ensures (b.email.None? || !Registered(s, b.email.value)) ==> r == Fail(400, "Invalid credentials")
    ensures r.status != 200 && r.status != 400 ==> r == ServerError && b.password.None?
    ensures r.status == 400 ==> r == Fail(400, "Invalid credentials")
    ensures b.email.Some? && Registered(s, b.email.value) && b.password.None? ==> r == ServerError
  {
    var found := if b.email.Some? then FindByEmail(s, b.email.value) else None;
    if found.None? then Fail(400, "Invalid credentials")
    else if b.password.None? then ServerError
    else
      var u := s.users[found.value];
      if !Crypto.Compare(b.password.value, u.password) then Fail(400, "Invalid credentials")
      else Response(200, Session(Crypto.Sign(cfg.secret, u.id), Summary(u)))
  }

  // ---------------------------------------------------------------------
  // Users

  datatype ProfileBody = ProfileBody(name: Option<string>, profile: Option<Profile>)

  /** GET /users/profile: the caller's own document without the password,
      `null` for an identifier with no user. */
  function ReadProfile(s: Store, uid: Id): (r: Response)
    ensures r.status == 200
    ensures uid in s.users ==> r.body == Account(Some(Public(s.users[uid])))
    ensures uid !in s.users ==> r.body == Account(None)
  {
    Response(200, Account(if uid in s.users then Some(Public(s.users[uid])) else None))
  }

  /** PUT /users/profile. Only `name` (trimmed) and `profile` can change, and
      each only when the request carries a truthy value for it; no other
      field of the caller and no other document changes. */
  function EditProfile(s: Store, uid: Id, b: ProfileBody): (r: Step)
    ensures r.store.next >= s.next
    ensures r.response.status == 200
    ensures r.store.jobs == s.jobs && r.store.proposals == s.proposals && r.store.messages == s.messages
    ensures r.store.users.Keys == s.users.Keys
    ensures forall k :: k in s.users && k != uid ==> r.store.users[k] == s.users[k]
    ensures uid !in s.users ==> r == Step(s, Response(200, Account(None)))
    ensures uid in s.users ==>
              var before, after := s.users[uid], r.store.users[uid];
              && after.id == before.id && after.email == before.email && after.password == before.password
              && after.userType == before.userType && after.rating == before.rating
              && after.isVerified == before.isVerified
              && after.name == (if Truthy(b.name) then Strings.Trim(b.name.value) else before.name)
              && after.profile == (if b.profile.Some? then b.profile.value else before.profile)
              && r.response.body == Account(Some(Public(after)))
  {
    if uid !in s.users then Step(s, Response(200, Account(None)))
    else
      var u' := ApplyProfile(s.users[uid], b);
      Step(ReplaceUser(s, u'), Response(200, Account(Some(Public(u')))))
  }

  /** The `updates` object applied to one user document. */
  function ApplyProfile(u: User, b: ProfileBody): User
  {
    var name := if Truthy(b.name) then Strings.Trim(b.name.value) else u.name;
    var profile := if b.profile.Some? then b.profile.value else u.profile;
    u.(name := name, profile := profile)
  }

  /** GET /users/freelancers: every freelancer and nobody else. */
  function Freelancers(s: Store): (r: seq<PublicUser>)
    ensures forall i :: 0 <= i < |r| ==>
              r[i].id in s.users && r[i] == Public(s.users[r[i].id]) && r[i].userType == Freelancer
    ensures forall k :: k in s.users && s.users[k].userType == Freelancer ==>
              exists i :: 0 <= i < |r| && r[i].id == k
  {
    var ids := SelectIds(s.users, (u: User) => u.userType == Freelancer, s.next);
    var r := Publics(Rows(s.users, ids));
    assert forall i :: 0 <= i < |r| ==> r[i].id == ids[i];
    r
  }

  function Publics(users: seq<User>): (r: seq<PublicUser>)
    ensures |r| == |users|
    ensures forall i :: 0 <= i < |users| ==> r[i] == Public(users[i])
  {
    if users == [] then [] else [Public(users[0])] + Publics(users[1..])
  }

  // ---------------------------------------------------------------------
  // Jobs

  /** The query string of GET /jobs. `budget` is read but never used. */
  datatype JobQuery = JobQuery(category: Option<string>, skills: Option<string>, budget: Option<string>,
                               search: Option<string>)

  /** The filter GET /jobs builds: open jobs only; the category, when given,
      matched exactly; when skills are given, at least one of the
      comma-separated (untrimmed) names among the job's skills; when a search
      is given, found case-insensitively in the title or the description. */
  predicate Listed(j: Job, q: JobQuery)
  {
    && j.status == Open
    && (Truthy(q.category) ==> j.category == q.category.value)
    && (Truthy(q.skills) ==> exists t :: t in Strings.Split(q.skills.value, ',') && t in j.skills)
    && (Truthy(q.search) ==>
          Strings.ContainsIgnoringCase(j.title, q.search.value)
          || Strings.ContainsIgnoringCase(j.description, q.search.value))
  }

  /** GET /jobs: exactly the listed jobs, each once, newest first. */
  function SearchJobs(s: Store, q: JobQuery): (r: seq<Job>)
    ensures forall i :: 0 <= i < |r| ==> r[i].id in s.jobs && s.jobs[r[i].id] == r[i] && Listed(r[i], q)
    ensures forall k :: k in s.jobs && Listed(s.jobs[k], q) ==> exists i :: 0 <= i < |r| && r[i].id == k
    ensures forall i, j :: 0 <= i < j < |r| ==> r[i].id > r[j].id
  {
    var ids := SelectIds(s.jobs, (j: Job) => Listed(j, q), s.next);
    var r := Rows(s.jobs, ids);
    assert forall i :: 0 <= i < |r| ==> r[i].id == ids[i];
    r
  }

  /** GET /jobs/:id. */
  function ReadJob(s: Store, id: Id): (r: Response)
    ensures id in s.jobs <==> r.status == 200
    ensures id in s.jobs ==> r.body == JobDoc(s.jobs[id])
    ensures id !in s.jobs ==> r == Fail(404, "Job not found")
  {
    if id in s.jobs then Response(200, JobDoc(s.jobs[id])) else Fail(404, "Job not found")
  }

  /** POST /jobs. The client of the new job is the caller, whatever the body
      says; everything else comes from the body and the schema defaults. */
  function CreateJob(s: Store, uid: Id, body: JobFields): (r: Step)
    ensures r.store.next >= s.next
    ensures r.store.users == s.users && r.store.proposals == s.proposals && r.store.messages == s.messages
    ensures r.response.status == 201 <==> NewJob(s.next, body.(client := Some(uid))).Some?
    ensures r.response.status != 201 ==> r == Step(s, ServerError)
    ensures r.response.status == 201 ==>
              && s.next !in s.jobs
              && r.store.jobs.Keys == s.jobs.Keys + {s.next}
              && (forall k :: k in s.jobs ==> r.store.jobs[k] == s.jobs[k])
              && Some(r.store.jobs[s.next]) == NewJob(s.next, body.(client := Some(uid)))
              && r.store.jobs[s.next].client == uid
              && (body.status.None? ==> r.store.jobs[s.next].status == Open)
              && r.response.body == JobDoc(r.store.jobs[s.next])
  {
    match NewJob(s.next, body.(client := Some(uid)))
    case None => Step(s, ServerError)
    case Some(j) =>
      var s' := AddJob(s, j);
      Step(s', Response(201, JobDoc(j)))
  }

  /** The caller owns job `id`: `Job.findOne({ _id: id, client: uid })`. */
  predicate Owns(s: Store, uid: Id, id: Id)
  {
    id in s.jobs && s.jobs[id].client == uid
  }

  /** PUT /jobs/:id. A missing job and a job owned by someone else get the
      same 404. Otherwise the body is assigned over the job wholesale (it may
      replace even `status`, `client` or `proposals`) and the result is saved
      if it still validates; no other job changes. */
  function EditJob(s: Store, uid: Id, id: Id, patch: JobFields): (r: Step)
    ensures r.store.next >= s.next
    ensures r.store.users == s.users && r.store.proposals == s.proposals && r.store.messages == s.messages
    ensures !Owns(s, uid, id) ==> r == Step(s, Fail(404, "Job not found"))
    ensures Owns(s, uid, id) ==>
              (r.response.status == 200 <==> NewJob(id, Assign(JobToFields(s.jobs[id]), patch)).Some?)
    ensures Owns(s, uid, id) && r.response.status != 200 ==> r == Step(s, ServerError)
    ensures r.response.status != 200 ==> r.store == s
    ensures r.response.status == 200 ==>
              && r.store.jobs.Keys == s.jobs.Keys
              && (forall k :: k in s.jobs && k != id ==> r.store.jobs[k] == s.jobs[k])
              && (var before, after := s.jobs[id], r.store.jobs[id];
                  && Some(after) == NewJob(id, Assign(JobToFields(before), patch))
                  && after.id == id
                  && after.title == (if patch.title.Some? then patch.title.value else before.title)
                  && after.client == (if patch.client.Some? then patch.client.value else before.client)
                  && after.proposals == (if patch.proposals.Some? then patch.proposals.value else before.proposals)
                  && (patch.status.Some? ==> JobStatusName(after.status) == patch.status.value)
                  && (patch.status.None? ==> after.status == before.status)
                  && r.response.body == JobDoc(after))
  {
    if !Owns(s, uid, id) then Step(s, Fail(404, "Job not found"))
    else
      var before := s.jobs[id];
      match NewJob(id, Assign(JobToFields(before), patch))
      case None => Step(s, ServerError)
      case Some(j) =>
        assert patch.status.None? ==> ParseJobStatus(JobStatusName(before.status)) == Some(before.status);
        var s' := ReplaceJob(s, j);
        Step(s', Response(200, JobDoc(j)))
  }

  /** DELETE /jobs/:id. The same 404 as an edit for a job the caller does not
      own; otherwise only that job is removed, and its proposals stay. */
  function RemoveJob(s: Store, uid: Id, id: Id): (r: Step)
    ensures r.store.next >= s.next
    ensures r.store.users == s.users && r.store.proposals == s.proposals && r.store.messages == s.messages
    ensures !Owns(s, uid, id) ==> r == Step(s, Fail(404, "Job not found"))
    ensures Owns(s, uid, id) ==>
              r.store.jobs == s.jobs - {id} && r.response == Response(200, Note("Job deleted successfully"))
  {
    if !Owns(s, uid, id) then Step(s, Fail(404, "Job not found"))
    else
      var s' := DropJob(s, id);
      Step(s', Response(200, Note("Job deleted successfully")))
  }

  // ---------------------------------------------------------------------
  // Proposals

  /** The proposals "my proposals" shows a registered caller: a freelancer's
      own proposals, and for anyone else the proposals on jobs they own. */
  predicate Mine(s: Store, uid: Id, p: Proposal)
    requires uid in s.users
  {
    if s.users[uid].userType == Freelancer then p.freelancer == uid
    else p.job in s.jobs && s.jobs[p.job].client == uid
  }

  /** `Job.find({ client: uid }).distinct('_id')`. */
  function ClientJobIds(s: Store, uid: Id): (r: set<Id>)
    ensures forall k :: k in r <==> Owns(s, uid, k)
  {
    set k | k in s.jobs && s.jobs[k].client == uid
  }

  /** GET /proposals/my. A caller with no user document makes the handler
      throw (500); otherwise exactly the caller's proposals, newest first. */
  function MyProposals(s: Store, uid: Id): (r: Response)
    ensures uid !in s.users <==> r == ServerError
    ensures uid in s.users ==>
              && r.status == 200 && r.body.ProposalList?
              && var ps := r.body.proposals;
                 && (forall i :: 0 <= i < |ps| ==>
                       ps[i].id in s.proposals && s.proposals[ps[i].id] == ps[i] && Mine(s, uid, ps[i]))
                 && (forall k :: k in s.proposals && Mine(s, uid, s.proposals[k]) ==>
                       exists i :: 0 <= i < |ps| && ps[i].id == k)
                 && (forall i, j :: 0 <= i < j < |ps| ==> ps[i].id > ps[j].id)
  {
    if uid !in s.users then ServerError
    else
      var keep :=
        if s.users[uid].userType == Freelancer then (p: Proposal) => p.freelancer == uid
        else var owned := ClientJobIds(s, uid); (p: Proposal) => p.job in owned;
      assert forall p: Proposal :: keep(p) == Mine(s, uid, p);
      Response(200, ProposalList(ProposalsWhere(s, keep)))
  }

  /** `Proposal.find(filter).sort({ createdAt: -1 })`. */
  function ProposalsWhere(s: Store, keep: Proposal -> bool): (ps: seq<Proposal>)
    ensures forall i :: 0 <= i < |ps| ==> ps[i].id in s.proposals && s.proposals[ps[i].id] == ps[i] && keep(ps[i])
    ensures forall k :: k in s.proposals && keep(s.proposals[k]) ==> exists i :: 0 <= i < |ps| && ps[i].id == k
    ensures forall i, j :: 0 <= i < j < |ps| ==> ps[i].id > ps[j].id
  {
    var ids := SelectIds(s.proposals, keep, s.next);
    var ps := Rows(s.proposals, ids);
    assert forall i :: 0 <= i < |ps| ==> ps[i].id == ids[i];
    ps
  }

  datatype ProposalBody = ProposalBody(jobId: Option<Id>, coverLetter: Option<string>, budget: Option<int>,
                                       timeline: Option<string>)

  /** `Proposal.findOne({ job, freelancer })` finds something. */
  predicate HasProposal(s: Store, job: Id, freelancer: Id)
  {
    exists k :: k in s.proposals && s.proposals[k].job == job && s.proposals[k].freelancer == freelancer
  }

  /** POST /proposals. A missing job gets 404 and a second proposal by the
      same caller on the same job gets 400; neither the job's state nor the
      caller's role is checked. On success exactly one pending proposal is
      added and its identifier appended to the job's list. */
  function SubmitProposal(s: Store, uid: Id, b: ProposalBody): (r: Step)
    ensures r.store.next >= s.next
    ensures r.store.users == s.users && r.store.messages == s.messages
    ensures (b.jobId.None? || b.jobId.value !in s.jobs) ==> r == Step(s, Fail(404, "Job not found"))
    ensures b.jobId.Some? && b.jobId.value in s.jobs && HasProposal(s, b.jobId.value, uid) ==>
              r == Step(s, Fail(400, "Already submitted proposal"))
    ensures r.response.status == 201 <==>
              && b.jobId.Some? && b.jobId.value in s.jobs && !HasProposal(s, b.jobId.value, uid)
              && Truthy(b.coverLetter) && b.budget.Some? && Truthy(b.timeline)
    ensures r.response.status != 201 ==> r.store == s
    ensures (b.jobId.Some? && b.jobId.value in s.jobs && !HasProposal(s, b.jobId.value, uid)
             && r.response.status != 201) ==> r == Step(s, ServerError)
    ensures r.response.status == 201 ==>
              && s.next !in s.proposals
              && r.store.proposals.Keys == s.proposals.Keys + {s.next}
              && (forall k :: k in s.proposals ==> r.store.proposals[k] == s.proposals[k])
              && (var p, jid := r.store.proposals[s.next], b.jobId.value;
                  && p.job == jid && p.freelancer == uid && p.status == Pending
                  && p.coverLetter == b.coverLetter.value && p.budget == b.budget.value
                  && p.timeline == b.timeline.value
                  && r.store.jobs == s.jobs[jid := s.jobs[jid].(proposals := s.jobs[jid].proposals + [s.next])]
                  && r.response.body == ProposalDoc(p))
  {
    if b.jobId.None? || b.jobId.value !in s.jobs then Step(s, Fail(404, "Job not found"))
    else
      var jid := b.jobId.value;
      if HasProposal(s, jid, uid) then Step(s, Fail(400, "Already submitted proposal"))
      else match NewProposal(s.next, Some(jid), Some(uid), b.coverLetter, b.budget, b.timeline)
        case None => Step(s, ServerError)
        case Some(p) =>
          var job := s.jobs[jid];
          var s' := ReplaceJob(AddProposal(s, p), job.(proposals := job.proposals + [p.id]));
          Step(s', Response(201, ProposalDoc(p)))
  }

  /** The status a status update stores: the named one, or the schema default
      when the body names none. */
  function RequestedStatus(status: Option<string>): (r: Option<ProposalStatus>)
    ensures status.None? ==> r == Some(Pending)
    ensures status.Some? ==> forall t :: r == Some(t) <==> ProposalStatusName(t) == status.value
  {
    if status.None? then Some(Pending) else ParseProposalStatus(status.value)
  }

  /** PUT /proposals/:id/status. A missing proposal gets 404 before anything
      else; a proposal whose job is gone makes the handler throw; a caller who
      is not the job's client gets 403; a status outside the enum fails
      validation. Otherwise the proposal takes the status, from any status,
      and an accepted proposal moves its job to in-progress; any other status
      leaves every job as it was. */
  function SetProposalStatus(s: Store, uid: Id, pid: Id, status: Option<string>): (r: Step)
    ensures r.store.next >= s.next
    ensures r.store.users == s.users && r.store.messages == s.messages
    ensures pid !in s.proposals ==> r == Step(s, Fail(404, "Proposal not found"))
    ensures pid in s.proposals && s.proposals[pid].job !in s.jobs ==> r == Step(s, ServerError)
    ensures pid in s.proposals && s.proposals[pid].job in s.jobs && !Owns(s, uid, s.proposals[pid].job) ==>
              r == Step(s, Fail(403, "Not authorized"))
    ensures pid in s.proposals && Owns(s, uid, s.proposals[pid].job) && RequestedStatus(status).None? ==>
              r == Step(s, ServerError)
    ensures r.response.status != 200 ==> r.store == s
    ensures r.response.status == 200 <==>
              pid in s.proposals && Owns(s, uid, s.proposals[pid].job) && RequestedStatus(status).Some?
    ensures r.response.status == 200 ==>
              var p, st := s.proposals[pid], RequestedStatus(status).value;
              && r.store.proposals == s.proposals[pid := p.(status := st)]
              && r.response.body == ProposalDoc(p.(status := st))
              && (st == Accepted ==> r.store.jobs == s.jobs[p.job := s.jobs[p.job].(status := InProgress)])
              && (st != Accepted ==> r.store.jobs == s.jobs)
  {
    if pid !in s.proposals then Step(s, Fail(404, "Proposal not found"))
    else
      var p := s.proposals[pid];
      if p.job !in s.jobs then Step(s, ServerError)
      else if s.jobs[p.job].client != uid then Step(s, Fail(403, "Not authorized"))
      else match RequestedStatus(status)
        case None => Step(s, ServerError)
        case Some(st) =>
          var p' := p.(status := st);
          var s1 := ReplaceProposal(s, p');
          var s' := if st == Accepted then ReplaceJob(s1, s.jobs[p.job].(status := InProgress)) else s1;
          Step(s', Response(200, ProposalDoc(p')))
  }

  // ---------------------------------------------------------------------
  // Messages

  datatype MessageBody = MessageBody(recipient: Option<Id>, content: Option<string>)

  /** GET /messages: exactly the messages the caller sent or received,
      newest first. */
  function Inbox(s: Store, uid: Id): (r: seq<Message>)
    ensures forall i :: 0 <= i < |r| ==>
              r[i].id in s.messages && s.messages[r[i].id] == r[i] && (r[i].sender == uid || r[i].recipient == uid)
    ensures forall k :: k in s.messages && (s.messages[k].sender == uid || s.messages[k].recipient == uid) ==>
              exists i :: 0 <= i < |r| && r[i].id == k
    ensures forall i, j :: 0 <= i < j < |r| ==> r[i].id > r[j].id
  {
    var ids := SelectIds(s.messages, (m: Message) => m.sender == uid || m.recipient == uid, s.next);
    var r := Rows(s.messages, ids);
    assert forall i :: 0 <= i < |r| ==> r[i].id == ids[i];
    r
  }

  /** POST /messages: one unread message from the caller, or a server error
      when the recipient or the content is missing. */
  function SendMessage(s: Store, uid: Id, b: MessageBody): (r: Step)
    ensures r.store.next >= s.next
    ensures r.store.users == s.users && r.store.jobs == s.jobs && r.store.proposals == s.proposals
    ensures r.response.status == 201 <==> b.recipient.Some? && Truthy(b.content)
    ensures r.response.status != 201 ==> r == Step(s, ServerError)
    ensures r.response.status == 201 ==>
              && s.next !in s.messages
              && r.store.messages.Keys == s.messages.Keys + {s.next}
              && (forall k :: k in s.messages ==> r.store.messages[k] == s.messages[k])
              && (var m := r.store.messages[s.next];
                  && m.sender == uid && m.recipient == b.recipient.value && m.content == b.content.value
                  && !m.isRead && r.response.body == MessageDoc(m))
  {
    match NewMessage(s.next, Some(uid), b.recipient, b.content)
    case None => Step(s, ServerError)
    case Some(m) =>
      var s' := AddMessage(s, m);
      Step(s', Response(201, MessageDoc(m)))
  }

  // ---------------------------------------------------------------------
  // Dispatch

  datatype Request =
    | PostRegister(register: RegisterBody)
    | PostLogin(login: LoginBody)
    | GetProfile
    | PutProfile(profileBody: ProfileBody)
    | GetFreelancers
    | GetJobs(query: JobQuery)
    | GetJob(jobId: Id)
    | PostJob(jobBody: JobFields)
    | PutJob(jobId: Id, patch: JobFields)
    | DeleteJob(jobId: Id)
    | GetMyProposals
    | PostProposal(proposalBody: ProposalBody)
    | PutProposalStatus(proposalId: Id, status: Option<string>)
    | GetMessages
    | PostMessage(messageBody: MessageBody)

  /** The routes mounted behind the `auth` middleware. */
  predicate Protected(req: Request)
  {
    !(req.PostRegister? || req.PostLogin? || req.GetFreelancers? || req.GetJobs? || req.GetJob?)
  }

  /** A request with the caller already authenticated: the protected half
      of the route table, each route run as the caller `uid`. The three
      reads leave the database as it is. */
  function Serve(cfg: Config, s: Store, uid: Id, req: Request): (r: Step)
    requires Protected(req)
    ensures req.GetProfile? ==> r == Step(s, ReadProfile(s, uid))
    ensures req.PutProfile? ==> r == EditProfile(s, uid, req.profileBody)
    ensures req.PostJob? ==> r == CreateJob(s, uid, req.jobBody)
    ensures req.PutJob? ==> r == EditJob(s, uid, req.jobId, req.patch)
    ensures req.DeleteJob? ==> r == RemoveJob(s, uid, req.jobId)
    ensures req.GetMyProposals? ==> r == Step(s, MyProposals(s, uid))
    ensures req.PostProposal? ==> r == SubmitProposal(s, uid, req.proposalBody)
    ensures req.PutProposalStatus? ==> r == SetProposalStatus(s, uid, req.proposalId, req.status)
    ensures req.GetMessages? ==> r == Step(s, Response(200, MessageList(Inbox(s, uid))))
    ensures req.PostMessage? ==> r == SendMessage(s, uid, req.messageBody)
    ensures req.GetProfile? || req.GetMyProposals? || req.GetMessages? ==> r.store == s
  {
    match req
    case GetProfile => Step(s, ReadProfile(s, uid))
    case PutProfile(b) => EditProfile(s, uid, b)
    case PostJob(f) => CreateJob(s, uid, f)
    case PutJob(id, patch) => EditJob(s, uid, id, patch)
    case DeleteJob(id) => RemoveJob(s, uid, id)
    case GetMyProposals => Step(s, MyProposals(s, uid))
    case PostProposal(b) => SubmitProposal(s, uid, b)
    case PutProposalStatus(id, st) => SetProposalStatus(s, uid, id, st)
    case GetMessages => Step(s, Response(200, MessageList(Inbox(s, uid))))
    case PostMessage(b) => SendMessage(s, uid, b)
  }

  /** One request to the API, with its Authorization header. The public
      routes ignore the header; every other route runs only after the
      middleware admits the caller, and a refused request changes nothing. */
  function Handle(cfg: Config, s: Store, header: Option<string>, req: Request): (r: Step)
    ensures Protected(req) && Authenticate(cfg, header).Refuse? ==>
              r == Step(s, Authenticate(cfg, header).response) && r.response.status == 401
    ensures Protected(req) && header.None? ==> r == Step(s, Fail(401, "Access denied"))
    ensures Protected(req) && Authenticate(cfg, header).Admit? ==>
              r == Serve(cfg, s, Authenticate(cfg, header).user, req)
    ensures req.PostRegister? ==> r == Register(cfg, s, req.register)
    ensures req.PostLogin? ==> r == Step(s, Login(cfg, s, req.login))
    ensures req.GetFreelancers? ==> r == Step(s, Response(200, Accounts(Freelancers(s))))
    ensures req.GetJobs? ==> r == Step(s, Response(200, JobList(SearchJobs(s, req.query))))
    ensures req.GetJob? ==> r == Step(s, ReadJob(s, req.jobId))
    ensures !Protected(req) && !req.PostRegister? ==> r.store == s
  {
    match req
    case PostRegister(b) => Register(cfg, s, b)
    case PostLogin(b) => Step(s, Login(cfg, s, b))
    case GetFreelancers => Step(s, Response(200, Accounts(Freelancers(s))))
    case GetJobs(q) => Step(s, Response(200, JobList(SearchJobs(s, q))))
    case GetJob(id) => Step(s, ReadJob(s, id))
    case _ =>
      match Authenticate(cfg, header)
      case Refuse(resp) => Step(s, resp)
      case Admit(uid) => Serve(cfg, s, uid, req)
  }

  datatype Call = Call(header: Option<string>, request: Request)

  /** A sequence of requests handled one after another. */
  function Run(cfg: Config, s: Store, calls: seq<Call>): Store
    decreases |calls|
  {
    if calls == [] then s
    else Run(cfg, Handle(cfg, s, calls[0].header, calls[0].request).store, calls[1..])
  }
}

=== FILE: stores.dfy ===
/** The database the routes run against: four collections keyed by
    identifier, and the counter that hands out identifiers. */
module Stores {
  import opened Base
  import opened Models
  import Strings

  datatype Db = Db(users: map<Id, User>, jobs: map<Id, Job>, proposals: map<Id, Proposal>,
                   messages: map<Id, Message>, next: Id)

  /** Every document sits under its own identifier, and every identifier in
      use was handed out before `next`. */
  predicate Keyed(d: Db)
  {
    && (forall k :: k in d.users ==> k < d.next && d.users[k].id == k)
    && (forall k :: k in d.jobs ==> k < d.next && d.jobs[k].id == k)
    && (forall k :: k in d.proposals ==> k < d.next && d.proposals[k].id == k)
    && (forall k :: k in d.messages ==> k < d.next && d.messages[k].id == k)
  }

  type Store = d: Db | Keyed(d) witness Db(map[], map[], map[], map[], 0)

  const Empty: Store := Db(map[], map[], map[], map[], 0)

  // Writes. Each keeps the store keyed: a new document gets the next
  // identifier, a replaced one keeps its own.

  function AddUser(s: Store, u: User): Store
    requires u.id == s.next
  {
    s.(users := s.users[u.id := u], next := s.next + 1)
  }

  function ReplaceUser(s: Store, u: User): Store
    requires u.id in s.users
  {
    s.(users := s.users[u.id := u])
  }

  function AddJob(s: Store, j: Job): Store
    requires j.id == s.next
  {
    s.(jobs := s.jobs[j.id := j], next := s.next + 1)
  }

  function ReplaceJob(s: Store, j: Job): Store
    requires j.id in s.jobs
  {
    s.(jobs := s.jobs[j.id := j])
  }

  function DropJob(s: Store, id: Id): Store
  {
    s.(jobs := s.jobs - {id})
  }

  function AddProposal(s: Store, p: Proposal): Store
    requires p.id == s.next
  {
    s.(proposals := s.proposals[p.id := p], next := s.next + 1)
  }

  function ReplaceProposal(s: Store, p: Proposal): Store
    requires p.id in s.proposals
  {
    s.(proposals := s.proposals[p.id := p])
  }

  function AddMessage(s: Store, m: Message): Store
    requires m.id == s.next
  {
    s.(messages := s.messages[m.id := m], next := s.next + 1)
  }

  /** What the schemas and the routes together keep true of the database:
      emails are stored lower-cased and are unique, no freelancer has two
      proposals on one job, a proposal names a job created before it (so a
      deleted job's identifier is never reused), and every job passes its
      required validators. */
  predicate Valid(s: Store)
  {
    EmailsLowerCase(s) && EmailsUnique(s) && OneProposalPerPair(s) && ProposalsNameEarlierJobs(s)
    && JobsValidate(s)
  }

  predicate EmailsLowerCase(s: Store)
  {
    forall k :: k in s.users ==> Strings.Lower(s.users[k].email) == s.users[k].email
  }

  predicate EmailsUnique(s: Store)
  {
    forall a, b :: a in s.users && b in s.users && s.users[a].email == s.users[b].email ==> a == b
  }

  predicate OneProposalPerPair(s: Store)
  {
    forall a, b ::
      a in s.proposals && b in s.proposals
      && s.proposals[a].job == s.proposals[b].job
      && s.proposals[a].freelancer == s.proposals[b].freelancer
      ==> a == b
  }

  predicate ProposalsNameEarlierJobs(s: Store)
  {
    forall k :: k in s.proposals ==> s.proposals[k].job < s.next
  }

  predicate JobsValidate(s: Store)
  {
    forall k :: k in s.jobs ==> JobSaved(s.jobs[k])
  }

  /** The identifiers below `n` of the documents of `m` that satisfy `keep`,
      largest (newest) first: the `.find(filter).sort({ createdAt: -1 })`
      of every listing route. */
  function SelectIds<T>(m: map<Id, T>, keep: T -> bool, n: nat): (r: seq<Id>)
    ensures forall i :: 0 <= i < |r| ==> r[i] < n && r[i] in m && keep(m[r[i]])
    ensures forall k :: k < n && k in m && keep(m[k]) ==> k in r
    ensures forall i, j :: 0 <= i < j < |r| ==> r[i] > r[j]
  {
    if n == 0 then []
    else
      var rest := SelectIds(m, keep, n - 1);
      if n - 1 in m && keep(m[n - 1]) then [n - 1] + rest else rest
  }

  /** The documents of `m` under the identifiers `ids`, in that order. */
  function Rows<T>(m: map<Id, T>, ids: seq<Id>): (r: seq<T>)
    requires forall i :: 0 <= i < |ids| ==> ids[i] in m
    ensures |r| == |ids|
    ensures forall i :: 0 <= i < |ids| ==> r[i] == m[ids[i]]
  {
    if ids == [] then [] else [m[ids[0]]] + Rows(m, ids[1..])
  }
}

=== FILE: strings.dfy ===
/** The string operations the routes and the schema setters rely on:
    lower-casing of ASCII and Latin-1 capitals, `String.prototype.trim`,
    `String.prototype.replace` with a string pattern, `String.prototype.split`
    on one character, and the case-insensitive substring test used by the job
    search. */
module Strings {
  import opened Base

  /** The capitals `toLowerCase` maps one step down the code table: the
      ASCII letters and the Latin-1 letters U+00C0 to U+00DE, except the
      multiplication sign U+00D7. */
  predicate IsUpper(c: char)
  {
    'A' <= c <= 'Z' || ('\U{00C0}' <= c <= '\U{00DE}' && c != '\U{00D7}')
  }

  function LowerChar(c: char): char
  {
    if IsUpper(c) then (c as int + 32) as char else c
  }

  /** Lower-cases the ASCII and Latin-1 capitals of `s` and leaves every
      other character. */
  function Lower(s: string): (r: string)
    ensures |r| == |s|
    ensures forall i :: 0 <= i < |s| ==> r[i] == LowerChar(s[i])
  {
    if s == [] then [] else [LowerChar(s[0])] + Lower(s[1..])
  }

  /** Every Latin-1 capital folds together with its small letter, U+0020
      further up the table, as `É` (U+00C9) does with `é` (U+00E9). */
  lemma LowerFoldsLatin1()
    ensures forall c: char {:trigger LowerChar(c)} :: '\U{00C0}' <= c <= '\U{00DE}' && c != '\U{00D7}' ==>
              LowerChar(c) == LowerChar((c as int + 32) as char) == (c as int + 32) as char
  {
    forall c: char {:trigger LowerChar(c)} | '\U{00C0}' <= c <= '\U{00DE}' && c != '\U{00D7}'
      ensures LowerChar(c) == LowerChar((c as int + 32) as char) == (c as int + 32) as char
    {
      assert !IsUpper((c as int + 32) as char);
    }
  }

  /** Lower-casing a lower-cased string changes nothing: a stored email is a
      fixed point of the schema's `lowercase` setter. */
  lemma LowerIdempotent(s: string)
    ensures Lower(Lower(s)) == Lower(s)
  {
  }

  // ---------------------------------------------------------------------
  // Occurrences of a pattern

  /** `pat` occurs in `s` starting at index `i`. */
  predicate OccursAt(pat: string, s: string, i: int)
  {
    0 <= i && i + |pat| <= |s| && s[i..i + |pat|] == pat
  }

  function FindFrom(pat: string, s: string, k: nat): (r: Option<nat>)
    ensures r.Some? ==> k <= r.value && OccursAt(pat, s, r.value)
    ensures r.Some? ==> forall j :: k <= j < r.value ==> !OccursAt(pat, s, j)
    ensures r.None? ==> forall j :: k <= j ==> !OccursAt(pat, s, j)
    decreases |s| - k
  {
    if k + |pat| > |s| then None
    else if s[k..k + |pat|] == pat then Some(k)
    else FindFrom(pat, s, k + 1)
  }

  /** The first index at which `pat` occurs in `s`, if it occurs at all. */
  function IndexOf(pat: string, s: string): (r: Option<nat>)
    ensures r.Some? ==> OccursAt(pat, s, r.value)
    ensures r.Some? ==> forall j :: 0 <= j < r.value ==> !OccursAt(pat, s, j)
    ensures r.None? <==> forall j :: !OccursAt(pat, s, j)
  {
    FindFrom(pat, s, 0)
  }

  /** `s.replace(pat, rep)` with a string pattern: only the FIRST occurrence of
      `pat` is replaced, wherever it is, and `s` is returned as it is when
      `pat` does not occur. */
  function ReplaceFirst(s: string, pat: string, rep: string): string
  {
    match IndexOf(pat, s)
    case None => s
    case Some(i) => s[..i] + rep + s[i + |pat|..]
  }

  /** Removing a pattern from the front of a string that starts with it gives
      back the rest. */
  lemma ReplaceLeadingPattern(pat: string, t: string)
    ensures ReplaceFirst(pat + t, pat, "") == t
  {
    var s := pat + t;
    assert OccursAt(pat, s, 0) by { assert s[0..|pat|] == pat; }
    var i := IndexOf(pat, s).value;
    assert i == 0;
    assert s[i + |pat|..] == t;
  }

  // ---------------------------------------------------------------------
  // Case-insensitive search

  /** `needle` occurs in `hay` when both are compared with their capitals
      lower-cased: the `{ $regex: search, $options: 'i' }` filter for a search
      string without regular-expression metacharacters. */
  function ContainsIgnoringCase(hay: string, needle: string): (r: bool)
    ensures r ==> exists i :: OccursAt(Lower(needle), Lower(hay), i)
    ensures !r ==> forall i :: !OccursAt(Lower(needle), Lower(hay), i)
  {
    var k := IndexOf(Lower(needle), Lower(hay));
    assert k.None? ==> forall j :: !OccursAt(Lower(needle), Lower(hay), j);
    assert k.Some? ==> OccursAt(Lower(needle), Lower(hay), k.value);
    k.Some?
  }

  /** A verbatim occurrence is found by the case-insensitive search. */
  lemma VerbatimOccurrenceFound(hay: string, needle: string, i: int)
    requires OccursAt(needle, hay, i)
    ensures ContainsIgnoringCase(hay, needle)
  {
    var lh, ln := Lower(hay), Lower(needle);
    assert lh[i..i + |needle|] == ln by {
      forall j | 0 <= j < |needle|
        ensures lh[i..i + |needle|][j] == ln[j]
      {
        assert hay[i + j] == needle[j];
      }
    }
    assert OccursAt(ln, lh, i);
  }

  /** The search does not depend on the case of either argument. */
  lemma SearchIgnoresCase(hay: string, needle: string)
    ensures ContainsIgnoringCase(Lower(hay), Lower(needle)) == ContainsIgnoringCase(hay, needle)
  {
    LowerIdempotent(hay);
    LowerIdempotent(needle);
  }

  // ---------------------------------------------------------------------
  // Trimming

  /** The white space `String.prototype.trim` removes: the ECMAScript
      WhiteSpace characters (tab, vertical tab, form feed, the byte-order
      mark and every Unicode space separator) and the LineTerminator
      characters (line feed, carriage return, U+2028 and U+2029). */
  predicate IsSpace(c: char)
  {
    || c == '\t' || c == '\U{000B}' || c == '\U{000C}' || c == '\U{FEFF}'
    || c == ' ' || c == '\U{00A0}' || c == '\U{1680}' || '\U{2000}' <= c <= '\U{200A}'
    || c == '\U{202F}' || c == '\U{205F}' || c == '\U{3000}'
    || c == '\n' || c == '\r' || c == '\U{2028}' || c == '\U{2029}'
  }

  function TrimStart(s: string): (r: string)
    ensures |r| <= |s| && r == s[|s| - |r|..]
    ensures forall i :: 0 <= i < |s| - |r| ==> IsSpace(s[i])
    ensures |r| > 0 ==> !IsSpace(r[0])
  {
    if |s| > 0 && IsSpace(s[0]) then TrimStart(s[1..]) else s
  }

  function TrimEnd(s: string): (r: string)
    ensures |r| <= |s| && r == s[..|r|]
    ensures forall i :: |r| <= i < |s| ==> IsSpace(s[i])
    ensures |r| > 0 ==> !IsSpace(r[|r| - 1])
  {
    if |s| > 0 && IsSpace(s[|s| - 1]) then TrimEnd(s[..|s| - 1]) else s
  }

  /** `s.trim()`: `s` without its leading and trailing white space. */
  function Trim(s: string): (r: string)
    ensures exists i, j :: SpaceOutside(s, i, j) && r == s[i..j]
    ensures |r| > 0 ==> !IsSpace(r[0]) && !IsSpace(r[|r| - 1])
    ensures (forall i :: 0 <= i < |s| ==> IsSpace(s[i])) <==> r == []
  {
    TrimEndOfTrimStart(s);
    TrimEnd(TrimStart(s))
  }

  /** The properties of `Trim`, proved about its definition. */
  lemma TrimEndOfTrimStart(s: string)
    ensures var r := TrimEnd(TrimStart(s));
            && (exists i, j :: SpaceOutside(s, i, j) && r == s[i..j])
            && (|r| > 0 ==> !IsSpace(r[0]) && !IsSpace(r[|r| - 1]))
            && ((forall i :: 0 <= i < |s| ==> IsSpace(s[i])) <==> r == [])
  {
    var t := TrimStart(s);
    var r := TrimEnd(t);
    TrimmedSlice(s, t, r);
    assert SpaceOutside(s, |s| - |t|, |s| - |t| + |r|) && r == s[|s| - |t|..|s| - |t| + |r|];
    if r == [] {
      AllSpaceWhenTrimmedEmpty(s, t, r);
    } else {
      assert !IsSpace(r[0]) by { assert r[0] == t[0]; }
    }
  }

  /** `s[i..j]` is a slice of `s` and every character outside it is white
      space. */
  predicate SpaceOutside(s: string, i: int, j: int)
  {
    && 0 <= i <= j <= |s|
    && (forall k :: 0 <= k < i ==> IsSpace(s[k]))
    && (forall k :: j <= k < |s| ==> IsSpace(s[k]))
  }

  /** Trimming keeps the slice of `s` between the leading and the trailing
      white space. */
  lemma TrimmedSlice(s: string, t: string, r: string)
    requires |r| <= |t| <= |s| && t == s[|s| - |t|..] && r == t[..|r|]
    requires forall k :: 0 <= k < |s| - |t| ==> IsSpace(s[k])
    requires forall k :: |r| <= k < |t| ==> IsSpace(t[k])
    ensures SpaceOutside(s, |s| - |t|, |s| - |t| + |r|)
    ensures r == s[|s| - |t|..|s| - |t| + |r|]
  {
    var i := |s| - |t|;
    forall k | i + |r| <= k < |s|
      ensures IsSpace(s[k])
    {
      assert s[k] == t[k - i];
    }
  }

  lemma AllSpaceWhenTrimmedEmpty(s: string, t: string, r: string)
    requires t == TrimStart(s) && r == TrimEnd(t) && r == []
    ensures forall i :: 0 <= i < |s| ==> IsSpace(s[i])
  {
  }

  // ---------------------------------------------------------------------
  // Splitting on a separator

  /** The inverse of `Split`: the parts glued back with the separator. */
  function Join(parts: seq<string>, sep: char): string
    requires |parts| > 0
  {
    if |parts| == 1 then parts[0] else parts[0] + [sep] + Join(parts[1..], sep)
  }

  /** `s.split(sep)` for a one-character separator: the maximal runs of `s`
      between separators, empty runs included and nothing trimmed. */
  function Split(s: string, sep: char): (parts: seq<string>)
    ensures |parts| > 0
    ensures forall i :: 0 <= i < |parts| ==> sep !in parts[i]
    ensures Join(parts, sep) == s
    decreases |s|
  {
    if s == [] then [[]]
    else
      var rest := Split(s[1..], sep);
      if s[0] == sep then
        assert ([[]] + rest)[1..] == rest;
        [[]] + rest
      else
        var parts := [[s[0]] + rest[0]] + rest[1..];
        assert |parts| > 1 ==> parts[1..] == rest[1..];
        parts
  }

  lemma {:induction false} SplitWithoutSeparator(s: string, sep: char)
    requires sep !in s
    ensures Split(s, sep) == [s]
    decreases |s|
  {
    if s != [] {
      SplitWithoutSeparator(s[1..], sep);
    }
  }

  lemma {:induction false} SplitAfterPart(p: string, sep: char, t: string)
    requires sep !in p
    ensures Split(p + [sep] + t, sep) == [p] + Split(t, sep)
    decreases |p|
  {
    var s := p + [sep] + t;
    if p == [] {
      assert s[1..] == t;
    } else {
      assert s[1..] == p[1..] + [sep] + t;
      SplitAfterPart(p[1..], sep, t);
      assert [p[0]] + p[1..] == p;
    }
  }

  /** Splitting the join of separator-free parts gives the parts back, so
      `Split` and `Join` are inverse bijections between strings and non-empty
      lists of separator-free strings. */
  lemma {:induction false} SplitJoin(parts: seq<string>, sep: char)
    requires |parts| > 0
    requires forall i :: 0 <= i < |parts| ==> sep !in parts[i]
    ensures Split(Join(parts, sep), sep) == parts
    decreases |parts|
  {
    if |parts| == 1 {
      SplitWithoutSeparator(parts[0], sep);
    } else {
      SplitAfterPart(parts[0], sep, Join(parts[1..], sep));
      SplitJoin(parts[1..], sep);
      assert [parts[0]] + parts[1..] == parts;
    }
  }
}
